=== FILE: README.md ===
# Face recognition for a media library: a Dafny model

The system is a serverless function. It receives a media library's notifications and
uses a face-recognition service in two ways.

- **Training.** An image uploaded under the training folder, or re-tagged there, with a
  tag like `faceLabel:Alice Smith` is indexed into a face collection. The collection is
  created on first use. The label is stored as the face's external id, with every space
  replaced by the placeholder `.-.-.-`, and the asset is tagged `faceId:<id>`.
- **Recognition.** An image uploaded under the recognition folder is searched:
  - faces are detected and those with sharpness under 40 are dropped;
  - each remaining face is cropped from the image by its rounded bounding box;
  - each crop is searched against the collection;
  - the external id of each top match is decoded back into a name, and the names are
    added to the asset as tags.

The model is pure functions over immutable data. The services (HTTP download, face
service, image library, media-library API) are oracles in `Services.Env`: each call's
answer is a function of what the model passes it, and a settled promise is a `Result`.
Two oracles see less than the real call: `explicit` answers by asset id alone, and the
describe and create faults are fixed per environment (see "## Left out"). Every
invocation produces a `Run`, which holds:

- the handler's calls to the collection and tagging services, in order: the collection
  describe and create, `indexFace`, and each `addTags` call with the `faceId:` tag or
  the names;
- the collection's state afterwards;
- whether the invocation completed or threw.

Modules:

- `Outcomes`, `Seqs` and `Text` hold the shared vocabulary: `Option` and `Result`,
  order-preserving filter and map, and `indexOf`/`substring` after the first `:`.
- `ExternalId` covers label encoding and decoding.
- `Geometry` covers `Math.round` and the crop rectangle.
- `Services` holds the oracle environment.
- `FaceSearch` covers detection, the two fan-outs and `search`.
- `TagStore` covers `retrieveResources` and `addTags`.
- `Indexer` covers `indexFace` and `processIndexOperation`, including the collection
  bootstrap.
- `Router` covers `handler`: a plan of actions for a notification, then their execution.
- `Scenarios` holds two complete invocations traced call by call.

Decoding follows the code. Lines 55-58 of `lambda/index.js` say the placeholder replaces
spaces in names before they become external ids, and line 309 turns matches of it back
into spaces, so a name read back should be the label that was indexed. But decoding uses `new RegExp('.-.-.-', 'g')`, and
there `.` matches any character except a line terminator. So a label such as `a-b-c-`
contains no space and no placeholder, yet it still decodes to a single space.
`ExternalId.Decode` models the regular expression as written, as a wildcard scan from
left to right. `ExternalId.LabelRoundTrip` proves the round trip for every label without
`-`. `ExternalId.WildcardBreaksRoundTrip` exhibits the counterexample.

## Model

| member | source | states |
|---|---|---|
| Text.IndexOf | lambda/index.js:325 | `indexOf(':')` is -1 exactly when there is no `:`; otherwise it is the position of the first `:` |
| Text.AfterFirst | lambda/index.js:325 | the substring after the first `:` is strictly shorter when there is a `:`, and is the whole id when there is none |
| Text.AfterFirstOfJoin | lambda/index.js:325 | for `prefix:rest` where the prefix holds no `:`, stripping yields exactly `rest`, colons in `rest` included |
| ExternalId.ReplaceSpaces | lambda/index.js:326 | no space survives the global replacement; a label without spaces is unchanged |
| ExternalId.ReplaceSpacesAppend | lambda/index.js:326 | the replacement acts character by character: it distributes over concatenation |
| ExternalId.GetExternalId | lambda/index.js:324-328 | an external id never contains a space; an id without `:` is used whole, with its spaces replaced, and one with neither is its own external id |
| ExternalId.Decode | lambda/index.js:309 | decoding never lengthens a string and leaves a string without `-` unchanged |
| ExternalId.DecodeReplaceSpaces | lambda/index.js:309 | decoding undoes the space replacement for every label without `-` |
| ExternalId.LabelRoundTrip | lambda/index.js:324-328 | the name read back from the external id of `prefix:label` is the label, when the label has no `-` |
| ExternalId.WildcardBreaksRoundTrip | lambda/index.js:309 | the label `a-b-c-` is stored unchanged but reads back as a single space |
| ExternalId.StripTwiceAgrees | lambda/index.js:75 | the tags-changed branch strips the prefix before `getExternalId` strips again; the result matches the upload branch exactly when the label holds no further `:` |
| Geometry.Round | lambda/index.js:251 | `Math.round` gives the integer within half a unit of its argument, with halves rounded up |
| Geometry.RoundUnique | lambda/index.js:251-254 | that window contains exactly one integer, so the rounded value is determined |
| Geometry.Denormalise | lambda/index.js:251-254 | each crop coordinate is within half a unit of the matching fraction times the image dimension, halves rounded up |
| Geometry.DenormaliseWithin | lambda/index.js:251-254 | for a box normalised to [0,1], each crop coordinate lies between 0 and the matching image dimension |
| Geometry.RoundingCanOverrun | lambda/index.js:251-265 | rounding can still push `left + width` past the image edge (2 + 2 > 3), so that box's crop rectangle extends past the image |
| FaceSearch.DetectFaces | lambda/index.js:228-237 | a box is kept exactly when some detection with sharpness at least 40 carries it; a missing `FaceDetails` gives no boxes |
| FaceSearch.DetectFacesAppend | lambda/index.js:229-233 | the sharpness filter judges each detection alone and keeps detection order |
| FaceSearch.DetectFacesOne | lambda/index.js:230-231 | a single detection is kept exactly when its sharpness reaches the threshold |
| FaceSearch.SharpnessExample | lambda/index.js:35 | scores 10, 39, 40 and 90 keep the last two boxes (the threshold is inclusive) |
| FaceSearch.ExtractFaces | lambda/index.js:248-275 | one crop attempt per box, in box order; an attempt settles with a crop exactly when the extraction of that box's rounded rectangle succeeds, and the crop is exactly the extracted bytes |
| FaceSearch.ExtractFacesAppend | lambda/index.js:250 | crop attempts over concatenated box lists concatenate |
| FaceSearch.PresentCrops | lambda/index.js:203 | every successful crop is passed on to the search |
| FaceSearch.PresentCropsAppend | lambda/index.js:203 | the null filter keeps the successful crops in their order |
| FaceSearch.SearchFaces | lambda/index.js:281-318 | at most one name per crop; a missing collection yields no names |
| FaceSearch.SearchOne | lambda/index.js:286-300 | a missing collection gives no response; otherwise a crop gets a response exactly when the search by image succeeds, and it is that search's response (a rejection is swallowed) |
| FaceSearch.TopName | lambda/index.js:305-310 | a name is read only from a response with at least one match whose face is present, and decoding never makes it longer than that face's external id |
| FaceSearch.SearchFacesOne | lambda/index.js:302-312 | one crop contributes the top match's name exactly when its response has matches, and nothing otherwise |
| FaceSearch.TopNameReadsLabel | lambda/index.js:305-310 | a top match stored from `prefix:name`, with no `:` in the prefix and no `-` in the name, reads back as exactly `name` |
| FaceSearch.SearchFacesAppend | lambda/index.js:302-312 | each crop's search contributes independently and in order |
| FaceSearch.PerBox | lambda/index.js:250-271 | one box contributes at most one name |
| FaceSearch.StagesOne | lambda/index.js:256-271 | cropping and searching a single box gives that box's own contribution |
| FaceSearch.StagesPerBox | lambda/index.js:200-203 | the two fan-outs with their filters equal processing box by box: names come out in box order, and a failure costs only its own box |
| FaceSearch.CropFaultIsolation | lambda/index.js:268-271 | a failed crop of the middle box of three leaves the other two boxes searched |
| FaceSearch.Search | lambda/index.js:193-210 | the search succeeds exactly when the download, the detection and the metadata read all succeed, and each of those failures rejects it with its own error; crop and search failures never reject it; on success the names are the box-by-box results over the sharp boxes; a missing collection yields no names |
| TagStore.Stop | lambda/cld-utils.js:36 | the loop stops at the first answer that fails or carries no usable cursor |
| TagStore.RetrieveResources | lambda/cld-utils.js:22-38 | requests are issued up to and including the stopping answer; the first request has no cursor and each later one carries the previous answer's cursor; the listing fails exactly when the stopping answer fails; otherwise it returns all resources in page order |
| TagStore.MergeTags | lambda/cld-utils.js:48 | the new tags come first and the asset's existing tags follow, when there are any |
| TagStore.MergeTagsKeepsAll | lambda/cld-utils.js:48 | as a multiset, the written tags are exactly the new tags plus the existing ones |
| TagStore.AddTags | lambda/cld-utils.js:43-56 | the write happens exactly when the read succeeds and carries the merged tags; the call resolves to the write's response exactly when both succeed, and never rejects |
| Indexer.IndexFace | lambda/index.js:155-187 | `addTags` is called with `faceId:` plus the first face's id exactly when the image registered a face; download and indexing errors propagate; no face is no error; with a registered face the call completes exactly when the asset's tags can be read and written, and otherwise a swallowed tag failure surfaces as a `TypeError`; the collection is untouched |
| Indexer.IndexFaceRegisters | lambda/index.js:173-181 | an image that registers face F, with readable and writable tags, gives exactly `indexFace` then an `addTags` call with `faceId:F`, and completes |
| Indexer.Recover | lambda/index.js:125-134 | a not-found error leads to exactly one create; a failed create is rethrown with nothing after it, and a successful one is followed by exactly one more `indexFace` on the present collection, whose outcome is the operation's; any other error is rethrown with no further call |
| Indexer.IndexOrRecover | lambda/index.js:124-134 | after a successful describe: a completed `indexFace` ends the operation; a not-found error from it leads to exactly one create and then to the `catch`, which rethrows a failed create or indexes a second time after a successful one; any other error is rethrown unchanged; no describe is repeated |
| Indexer.ProcessIndexOperation | lambda/index.js:119-135 | whatever the services answer: one describe, first; at most one create; every `indexFace` uses the same asset, label and URL; the collection only goes from absent to present, and only through a create |
| Indexer.DescribeSucceeds | lambda/index.js:121-124 | an existing collection whose indexing does not report it missing gives one describe and one `indexFace`, and no create |
| Indexer.DescribeNotFound | lambda/index.js:126-131 | a missing collection is created exactly once; after a successful create, `indexFace` runs on the present collection |
| Indexer.DescribeFails | lambda/index.js:132-134 | any other describe error is rethrown after the describe alone |
| Indexer.PresentIndexingFound | lambda/index.js:124 | if the services never report a missing collection spuriously, indexing on a present collection never reports it missing |
| Indexer.BootstrapIdempotent | lambda/index.js:119-135 | two operations in a row on a missing collection create it once, during the first; the second only describes and indexes |
| Indexer.OperationRegisters | lambda/index.js:119-135 | on a present collection, an image that registers a face gives describe, `indexFace`, tag, and the operation completes |
| Indexer.DescribeAnswer | lambda/index.js:121-123 | `describeCollection` succeeds exactly when the collection exists and no other fault occurs; a missing collection is reported as not found |
| Indexer.CreateAnswer | lambda/index.js:127-129 | `createCollection` succeeds exactly when the collection is missing and no other fault occurs; its failure is never a not-found error unless the fault itself is one |
| Indexer.IndexAnswer | lambda/index.js:172 | `indexFaces` on a missing collection fails as not found; on an existing one it gives the face service's answer |
| Router.FirstLabel | lambda/index.js:71-80 | finds the first tag starting with the label prefix and stops there; it reports none exactly when no tag has the prefix |
| Router.BaseUrl | lambda/index.js:59 | the base URL holds the cloud name after the delivery host and ends with the transformation and a `/` |
| Router.ImageUrl | lambda/index.js:73 | the image URL is the base URL followed by the asset's id (and `.jpg`) |
| Router.ImageUrlInjective | lambda/index.js:73 | different assets are fetched from different URLs |
| Router.Plan | lambda/index.js:66-113 | a tags-changed notification only indexes; an upload yields at most one action, about the uploaded asset; any other notification yields none |
| Router.Execute | lambda/index.js:74-110 | an existing collection stays existing, and only a search can make the run throw |
| Router.Handle | lambda/index.js:66-113 | only an upload under the recognition folder can fail the invocation; an unrecognised notification makes no call and completes; an existing collection is never lost |
| Router.PlanResource | lambda/index.js:70-82 | a resource is indexed exactly when it is under the training folder, has an `added` list and one of those tags has the prefix; indexing uses the first such tag, stripped after its first `:` |
| Router.PlanResources | lambda/index.js:69-83 | at most one operation per resource, and all of them are index operations |
| Router.PlanResourcesOne | lambda/index.js:69-83 | a notification with one resource plans exactly what that resource plans |
| Router.PlanResourcesAppend | lambda/index.js:69 | resources are planned independently and in order |
| Router.PlanUpload | lambda/index.js:85-111 | an upload is searched exactly when it is not a training asset with tags and it is under the recognition folder; a training upload with a tag that has the label prefix is indexed once, under its first such tag, passed whole |
| Router.UnrecognisedIsIgnored | lambda/index.js:68-112 | a notification of any other type makes no call and completes |
| Router.EveryIndexAttempted | lambda/index.js:74-78 | every planned index operation is attempted with its own describe, and no failure of one fails the invocation |
| Router.PresentIndexesNeverCreate | lambda/index.js:69-80 | index operations run one after another, each on the collection the previous one left, so once the collection exists no later operation creates it, and it stays present |
| Router.IndexPlanCreatesOnce | lambda/index.js:69-80 | a plan of index operations on a missing collection, with no describe or create fault, creates it exactly once |
| Indexer.PresentOperationNeverCreates | lambda/index.js:119-135 | an operation on a present collection, without spurious not-found errors, never calls create and leaves the collection present |
| Router.TagsChangedIndexesEach | lambda/index.js:68-83 | a tags-changed notification always completes and makes one describe per planned resource |
| Router.RecognitionOutcome | lambda/index.js:97-110 | for any upload that plans a search, whatever its tags: the invocation fails exactly when the search does, and `addTags` is called with the names exactly when at least one is found |
| Router.ExecuteOneIndex | lambda/index.js:89-93 | a single index action runs its operation and completes even if the operation threw |
| Router.PlanTrainingUpload | lambda/index.js:85-88 | a training upload carrying one face label plans exactly one index action under the whole tag |
| Router.TrainingUpload | lambda/index.js:85-96 | a training upload with one label on an existing collection whose image registers a face and whose asset tags can be read and written gives describe, `indexFace` under the label's external id, and `addTags` with the face-id tag, and completes |
| Scenarios.TwoWordExternalId | lambda/index.js:324-328 | `prefix:First Last` is stored as `First.-.-.-Last` |
| Scenarios.TrainingScenario | lambda/index.js:85-96 | uploading `training/alice` tagged `faceLabel:Alice Smith` indexes it as `Alice.-.-.-Smith` and calls `addTags` with `faceId:F1`, which completes because the asset's tags can be read and written |
| Scenarios.BobName | lambda/index.js:309 | the match `Bob.-.-.-Lee` reads back as `Bob Lee` |
| Scenarios.RecognitionScenario | lambda/index.js:97-110 | uploading `assets/photo1` with one sharp face matching `Bob.-.-.-Lee` calls `addTags` with `Bob Lee` |

## Left out

- HTTP downloads, base64 buffers, the image library's pixel work and the face service's matching are oracles of `Services.Env`. Only their outcomes are modelled.
- `Promise.all` runs its calls concurrently. The model evaluates them in order. Each call's answer depends only on its own arguments, and results keep their input order, so the result is the same.
- `addTags` reads the tags and then writes them back. A concurrent writer between those two steps could lose tags. This race is not modelled.
- `Math.round` works on IEEE doubles. The model rounds exact rationals, so the products `fraction * dimension` carry no rounding error.
- Environment variables, the media library's configuration, the AWS region, logging and `console.time` are left out. The configuration is the `Router.Config` value.
- The search request's parameters (the string-typed `confidenceThreshold` and `MaxFaces: 1`) and the index request's `MaxFaces: 1` and `QualityFilter: 'AUTO'` (lines 169-170 of `lambda/index.js`) are left out. Their effect is inside the face-service oracle.
- `uploadAndIndex` and the other utilities after line 330 of `lambda/index.js`, and `upload` in `lambda/cld-utils.js`, are not part of the core. They are not modelled.
- JavaScript strings are UTF-16. A character outside the Basic Multilingual Plane is one Dafny `char` but two code units for `.` in the regular expression. Such labels are not modelled.
- The model assumes these fields are present: `ExternalImageId`, `Quality.Sharpness`, `BoundingBox`, `FaceRecords[0].Face.FaceId` and the image's `width`/`height`. `FaceMatches[0].Face` is modelled, as `Option`. The source treats the missing fields differently, and the model produces none of these outcomes:
  - A missing `ExternalImageId` throws at `externalImg.replace` (line 307 of `lambda/index.js`). The `try` of `searchFaces` (lines 313-316) swallows it, so that search resolves to `undefined`: every name from the image is dropped, and the handler completes without calling `addTags` (lines 99-101).
  - A missing `Quality.Sharpness` throws nothing: `undefined >= 40` is false (line 230), so that detection is silently dropped.
  - A missing `BoundingBox` puts `undefined` among the boxes, and reading `Left` from it in `extractFaces` throws outside any `try`, which rejects the search.
  - A missing `FaceId` gives the tag `faceId:undefined` (line 178), and no error; a missing `Face` there throws a `TypeError`, which the handler's `catch` logs.
  - A missing `width` or `height` makes the rounded coordinates `NaN`, which are passed to the image library's `extract`.
- Parsing the notification envelope is left out: `notification_type`, `resources`, `added` and `tags` are taken as already decoded. A non-array `added` is not modelled.
- The media library's `explicit` oracle takes only the asset id, not the tags being written (lines 49-53 of `lambda/cld-utils.js`), so whether a write succeeds cannot depend on the tags.
- Describe and create failures other than "not found" and "already exists" are one fixed fault per environment. Each is called at most once per operation.
- TagStore.RetrieveResources: requires that some answer ends the listing. The source loops forever against a listing that always returns a cursor.
- FaceSearch.PresentCrops: its contract states only that every successful crop is kept. The order and exactness of the filter are stated by `FaceSearch.PresentCropsAppend` and `FaceSearch.StagesPerBox`.
- FaceSearch.SearchFaces: its contract bounds only the number of names. Which names appear is stated box by box by `FaceSearch.StagesPerBox` and `FaceSearch.PerBox`.
- Indexer.IndexFace: a call is recorded when `indexFace` starts, even if its download then fails and no request reaches the face service.
- FaceSearch.ExtractFaces: every failed extraction is modelled as caught and costing only its own box. A negative `left`/`top` or a zero `width`/`height` makes the image library's `extract` throw while the attempts are being built, outside any `.catch`; that rejects the whole search, and the model does not represent it. `Geometry.DenormaliseWithin` shows a normalised box never gives a negative offset, but a rounded width or height can be 0.
- Indexer.CreateAnswer: the collection is a single state per invocation, so a create on a present collection always fails as already existing. The path where the collection disappears between `describeCollection` and `indexFaces` and is then created again is not represented.
- `FaceSearch.HasMatches` is a predicate without a contract of its own; its use is stated by `FaceSearch.SearchFacesOne`.
- A `Run` records each `addTags` call, not the write it makes. When reading the asset fails, `addTags` writes nothing, and a failed write is swallowed (lines 44-55 of `lambda/cld-utils.js`). In both cases the asset stays untagged although the call is recorded. `TagStore.AddTags` states when the write happens and succeeds; on the training path the failure surfaces as the `TypeError` of `Indexer.IndexFace`, and on the recognition path the invocation still completes.

=== FILE: external_id.dfy ===
/** The label carried as a face's `ExternalImageId`: how `getExternalId` derives it from a
    tag, and how `searchFaces` turns it back into a name. */
module ExternalId {
  import opened Text

  /** `replacementText`, written in place of every space of a label. */
  const Placeholder: string := ".-.-.-"

  /** `s.replace(new RegExp(' ', 'g'), replacementText)`. */
  function ReplaceSpaces(s: string): (r: string)
    ensures ' ' !in r
    ensures |r| >= |s|
    ensures ' ' !in s ==> r == s
  {
    if |s| == 0 then [] else Spell(s[0]) + ReplaceSpaces(s[1..])
  }

  /** What one character of a label is stored as. */
  function Spell(c: char): (r: string)
    ensures ' ' !in r && |r| >= 1
    ensures c != ' ' ==> r == [c]
  {
    if c == ' ' then Placeholder else [c]
  }

  /** Space replacement works character by character. */
  lemma {:induction false} ReplaceSpacesAppend(x: string, y: string)
    ensures ReplaceSpaces(x + y) == ReplaceSpaces(x) + ReplaceSpaces(y)
  {
    if |x| == 0 {
      assert x + y == y;
    } else {
      assert (x + y)[0] == x[0] && (x + y)[1..] == x[1..] + y;
      assert ReplaceSpaces(x + y) == Spell(x[0]) + ReplaceSpaces(x[1..] + y);
      ReplaceSpacesAppend(x[1..], y);
      assert Spell(x[0]) + (ReplaceSpaces(x[1..]) + ReplaceSpaces(y))
          == (Spell(x[0]) + ReplaceSpaces(x[1..])) + ReplaceSpaces(y);
    }
  }

  /** A replaced label starts with the placeholder's `.` or with the label's own first character. */
  lemma ReplaceSpacesHead(s: string)
    requires |s| > 0
    ensures |ReplaceSpaces(s)| > 0
    ensures ReplaceSpaces(s)[0] == if s[0] == ' ' then '.' else s[0]
  {
  }

  /** `getExternalId(id)`: everything after the first `:` (all of `id` when it has none),
      with every space replaced by the placeholder. */
  function GetExternalId(id: string): (r: string)
    ensures ' ' !in r
    ensures ':' !in id ==> r == ReplaceSpaces(id)
    ensures ':' !in id && ' ' !in id ==> r == id
  {
    ReplaceSpaces(AfterFirst(id, ':'))
  }

  /** A character the regular-expression `.` matches: anything but a line terminator. */
  predicate Wildcard(c: char) {
    c != '\n' && c != '\r' && c != '\U{2028}' && c != '\U{2029}'
  }

  /** Whether `/.-.-.-/` matches at the start of `s`, each `.` being a wildcard. */
  predicate MatchesAtStart(s: string) {
    && |s| >= 6
    && Wildcard(s[0]) && s[1] == '-'
    && Wildcard(s[2]) && s[3] == '-'
    && Wildcard(s[4]) && s[5] == '-'
  }

  /** `s.replace(new RegExp(replacementText, 'g'), ' ')`: a left-to-right scan that replaces
      each non-overlapping match of `/.-.-.-/` with one space. Because `.` is a wildcard,
      any run such as `a-b-c-` is replaced too, not only the placeholder. */
  function Decode(s: string): (r: string)
    ensures |r| <= |s|
    ensures '-' !in s ==> r == s
    decreases |s|
  {
    if |s| == 0 then []
    else if MatchesAtStart(s) then " " + Decode(s[6..])
    else [s[0]] + Decode(s[1..])
  }

  /** A placeholder at the front decodes to one space. */
  lemma DecodePlaceholder(rest: string)
    ensures Decode(Placeholder + rest) == " " + Decode(rest)
  {
    var e := Placeholder + rest;
    assert e[0] == '.' && e[1] == '-' && e[2] == '.' && e[3] == '-' && e[4] == '.' && e[5] == '-';
    assert MatchesAtStart(e);
    assert e[6..] == rest;
  }

  /** A character other than `-` followed by something that does not start with `-`
      is copied unchanged. */
  lemma DecodeCopies(c: char, rest: string)
    requires |rest| > 0 ==> rest[0] != '-'
    ensures Decode([c] + rest) == [c] + Decode(rest)
  {
    var e := [c] + rest;
    assert |rest| > 0 ==> e[1] == rest[0];
    assert !MatchesAtStart(e);
    assert e[1..] == rest;
  }

  /** Decoding undoes space replacement for every label without a `-`. */
  lemma {:induction false} DecodeReplaceSpaces(s: string)
    requires '-' !in s
    ensures Decode(ReplaceSpaces(s)) == s
  {
    if |s| > 0 {
      var rest := ReplaceSpaces(s[1..]);
      assert '-' !in s[1..];
      DecodeReplaceSpaces(s[1..]);
      if s[0] == ' ' {
        assert ReplaceSpaces(s) == Placeholder + rest;
        DecodePlaceholder(rest);
      } else {
        assert ReplaceSpaces(s) == [s[0]] + rest;
        if |rest| > 0 {
          ReplaceSpacesHead(s[1..]);
        }
        DecodeCopies(s[0], rest);
      }
      assert s == [s[0]] + s[1..];
    }
  }

  /** The round trip between the tag `prefix:label` and the name put back on the image:
      it holds for every label without a `-`, spaces and colons included. */
  lemma LabelRoundTrip(prefix: string, name: string)
    requires ':' !in prefix
    requires '-' !in name
    ensures Decode(GetExternalId(prefix + ":" + name)) == name
  {
    AfterFirstOfJoin(prefix, ':', name);
    assert prefix + ":" + name == prefix + [':'] + name;
    DecodeReplaceSpaces(name);
  }

  /** `a-b-c-` holds no space, so it is its own external id. */
  lemma WildcardLabelKept(prefix: string, e: string)
    requires ':' !in prefix && e == "a-b-c-"
    ensures GetExternalId(prefix + ":" + e) == e
  {
    assert prefix + ":" + e == prefix + [':'] + e;
    AfterFirstOfJoin(prefix, ':', e);
    forall i | 0 <= i < |e| ensures e[i] != ' ' { }
  }

  /** The wildcard match turns `a-b-c-` into a single space. */
  lemma WildcardLabelDecoded(e: string)
    requires e == "a-b-c-"
    ensures Decode(e) == " "
  {
    assert e[0] == 'a' && e[1] == '-' && e[2] == 'b' && e[3] == '-' && e[4] == 'c' && e[5] == '-';
    assert MatchesAtStart(e);
    assert e[6..] == [];
  }

  /** Without the precondition the round trip fails: `a-b-c-` holds no space and no
      placeholder, yet the wildcard match turns it into a single space. */
  lemma WildcardBreaksRoundTrip(prefix: string, e: string)
    requires ':' !in prefix && e == "a-b-c-"
    ensures Decode(GetExternalId(prefix + ":" + e)) == " " != e
  {
    WildcardLabelKept(prefix, e);
    WildcardLabelDecoded(e);
  }

  /** Stripping a label that still holds a `:` drops at least its first character. */
  lemma SecondStripShortens(a: string)
    requires ':' in a
    ensures |GetExternalId(a)| < |ReplaceSpaces(a)|
  {
    var i := IndexOf(a, ':');
    var b := a[i + 1..];
    assert AfterFirst(a, ':') == b;
    assert a == a[..i + 1] + b;
    ReplaceSpacesAppend(a[..i + 1], b);
  }

  /** The training branch for `resource_tags_changed` strips the tag's prefix before
      `getExternalId` strips again; the `upload` branch passes the whole tag. Both give the
      same external id exactly when the label after the first `:` holds no further `:`. */
  lemma StripTwiceAgrees(tag: string)
    ensures GetExternalId(AfterFirst(tag, ':')) == GetExternalId(tag)
        <==> ':' !in AfterFirst(tag, ':')
  {
    var a := AfterFirst(tag, ':');
    assert GetExternalId(tag) == ReplaceSpaces(a);
    if ':' in a {
      SecondStripShortens(a);
    }
  }
}

=== FILE: geometry.dfy ===
/** Turning a detector's normalised bounding box into the pixel rectangle `extractFaces`
    asks the image library to cut out. */
module Geometry {

  /** A face location as the detector reports it, each field a fraction of the image's
      width or height. */
  datatype BoundingBox = BoundingBox(left: real, top: real, width: real, height: real)

  /** The source image's pixel size, as its metadata reports it. */
  datatype Dims = Dims(width: nat, height: nat)

  /** The integer rectangle passed to `extract`. */
  datatype CropRect = CropRect(left: int, top: int, width: int, height: int)

  /** `Math.round` on an exact rational: the nearest integer, a half rounded up. */
  function Round(x: real): (n: int)
    ensures x - 0.5 < n as real <= x + 0.5
  {
    (x + 0.5).Floor
  }

  /** The half-open window of `Round`'s contract admits exactly one integer, so it
      defines rounding on its own. */
  lemma RoundUnique(x: real, m: int)
    ensures x - 0.5 < m as real <= x + 0.5 <==> m == Round(x)
  {
    var n := Round(x);
    if x - 0.5 < m as real <= x + 0.5 {
      assert (m - n) as real < 1.0 && (n - m) as real < 1.0;
    }
  }

  lemma MulNonNegative(a: real, b: real)
    requires 0.0 <= a && 0.0 <= b
    ensures 0.0 <= a * b
  {
  }

  /** A fraction of a non-negative length, rounded, lies between zero and that length. */
  lemma RoundScaledWithin(f: real, d: nat)
    requires 0.0 <= f <= 1.0
    ensures 0 <= Round(f * d as real) <= d
  {
    var x := f * d as real;
    MulNonNegative(f, d as real);
    MulNonNegative(1.0 - f, d as real);
    assert d as real - x == (1.0 - f) * d as real;
  }

  /** Every field of the box lies in the unit interval. */
  predicate Normalised(b: BoundingBox) {
    && 0.0 <= b.left <= 1.0 && 0.0 <= b.top <= 1.0
    && 0.0 <= b.width <= 1.0 && 0.0 <= b.height <= 1.0
  }

  /** The crop rectangle for one box: each coordinate is its fraction times the matching
      image dimension, rounded to the nearest integer. */
  function Denormalise(b: BoundingBox, d: Dims): (r: CropRect)
    ensures b.left * d.width as real - 0.5 < r.left as real <= b.left * d.width as real + 0.5
    ensures b.top * d.height as real - 0.5 < r.top as real <= b.top * d.height as real + 0.5
    ensures b.width * d.width as real - 0.5 < r.width as real <= b.width * d.width as real + 0.5
    ensures b.height * d.height as real - 0.5 < r.height as real <= b.height * d.height as real + 0.5
  {
    CropRect(
      Round(b.left * d.width as real),
      Round(b.top * d.height as real),
      Round(b.width * d.width as real),
      Round(b.height * d.height as real))
  }

  /** For a normalised box every coordinate lies in `[0, dimension]`. Nothing bounds
      `left + width` by the width, so the rectangle may still reach past the image edge. */
  lemma DenormaliseWithin(b: BoundingBox, d: Dims)
    requires Normalised(b)
    ensures var r := Denormalise(b, d);
      && 0 <= r.left <= d.width && 0 <= r.top <= d.height
      && 0 <= r.width <= d.width && 0 <= r.height <= d.height
  {
    RoundScaledWithin(b.left, d.width);
    RoundScaledWithin(b.top, d.height);
    RoundScaledWithin(b.width, d.width);
    RoundScaledWithin(b.height, d.height);
  }

  /** A box inside the image whose right half is covered still rounds past the right
      edge of a 3-pixel-wide image (2 + 2 > 3): its crop rectangle extends past the image edge. */
  lemma RoundingCanOverrun()
    ensures var r := Denormalise(BoundingBox(0.5, 0.0, 0.5, 1.0), Dims(3, 1));
      r.left == 2 && r.width == 2 && r.left + r.width > 3
  {
  }
}

=== FILE: indexer.dfy ===
/** Training: `processIndexOperation` (collection bootstrap around indexing) and
    `indexFace` (indexing one labelled image and tagging the asset with its face id). */
module Indexer {
  import opened Outcomes
  import opened Services
  import opened ExternalId
  import TagStore

  /** How an async call settled, seen from its caller. */
  datatype Outcome = Completed | Threw(error: Error)

  /** The observable effect of one call: the service calls made, the collection's state
      afterwards, and how the call settled. */
  datatype Run = Run(calls: seq<Call>, collection: Collection, outcome: Outcome)

  const FaceIdPrefix: string := "faceId:"

  /** The error carrying the code the bootstrap recovers from. */
  const NotFoundError: Error := Error(Some(ResourceNotFound))

  predicate IsNotFound(o: Outcome) {
    o.Threw? && o.error.code == Some(ResourceNotFound)
  }

  /** `describeCollection`: missing collections are reported as not found. */
  function DescribeAnswer(env: Env, col: Collection): (r: Result<()>)
    ensures r.Success? <==> env.describeFault.None? && col.Present?
    ensures env.describeFault.None? && col.Absent? ==> r == Failure(NotFoundError)
  {
    if env.describeFault.Some? then Failure(env.describeFault.value)
    else if col.Absent? then Failure(NotFoundError)
    else Success(())
  }

  /** `createCollection`: creating an existing collection is an error. */
  function CreateAnswer(env: Env, col: Collection): (r: Result<()>)
    ensures r.Success? <==> env.createFault.None? && col.Absent?
    ensures r.Failure? ==> r.error.code != Some(ResourceNotFound) || env.createFault.Some?
  {
    if env.createFault.Some? then Failure(env.createFault.value)
    else if col.Present? then Failure(Error(Some(ResourceAlreadyExists)))
    else Success(())
  }

  /** `indexFaces`: on a missing collection it fails as not found. */
  function IndexAnswer(env: Env, col: Collection, image: Bytes, externalId: string): (r: Result<IndexResponse>)
    ensures col.Absent? ==> r == Failure(NotFoundError)
    ensures col.Present? ==> r == env.indexFaces(image, externalId)
  {
    if col.Absent? then Failure(NotFoundError) else env.indexFaces(image, externalId)
  }

  /** The engine registered a face for this image: the download and the indexing call
      succeeded and `FaceRecords` is non-empty. */
  predicate FaceFound(env: Env, col: Collection, externalId: string, url: string) {
    && env.fetch(url).Success?
    && var answer := IndexAnswer(env, col, env.fetch(url).value, externalId);
    && answer.Success?
    && answer.value.faceRecords.Some?
    && |answer.value.faceRecords.value| > 0
  }

  /** The id of the first registered face. */
  function FoundFaceId(env: Env, col: Collection, externalId: string, url: string): string
    requires FaceFound(env, col, externalId, url)
  {
    IndexAnswer(env, col, env.fetch(url).value, externalId).value.faceRecords.value[0].faceId
  }

  /** Every `indexFace` call among `calls` is for this asset, label and URL. */
  predicate IndexesOnly(calls: seq<Call>, publicId: string, externalId: string, url: string) {
    forall c :: c in calls && c.IndexFaceCall? ==> c == IndexFaceCall(publicId, externalId, url)
  }

  lemma IndexesOnlyAppend(xs: seq<Call>, ys: seq<Call>, publicId: string, externalId: string, url: string)
    requires IndexesOnly(xs, publicId, externalId, url) && IndexesOnly(ys, publicId, externalId, url)
    ensures IndexesOnly(xs + ys, publicId, externalId, url)
  {
  }

  /** `indexFace(public_id, external_id, url)`. */
  function IndexFace(env: Env, col: Collection, publicId: string, externalId: string, url: string): (r: Run)
    ensures r.collection == col
    ensures |r.calls| > 0 && r.calls[0] == IndexFaceCall(publicId, externalId, url)
    ensures DescribeCollection !in r.calls && CreateCollection !in r.calls
    ensures multiset(r.calls)[DescribeCollection] == 0 && multiset(r.calls)[CreateCollection] == 0
    ensures IndexesOnly(r.calls, publicId, externalId, url)
    // exactly one `faceId:` tag when a face was registered, none otherwise
    ensures FaceFound(env, col, externalId, url) ==>
      r.calls == [IndexFaceCall(publicId, externalId, url), AddFaceIdTag(publicId, FaceIdPrefix + FoundFaceId(env, col, externalId, url))]
    ensures !FaceFound(env, col, externalId, url) ==> r.calls == [IndexFaceCall(publicId, externalId, url)]
    // a download or indexing failure propagates; no face is no error
    ensures env.fetch(url).Failure? ==> r.outcome == Threw(env.fetch(url).error)
    ensures col.Absent? && env.fetch(url).Success? ==> IsNotFound(r.outcome)
    ensures env.fetch(url).Success? && IndexAnswer(env, col, env.fetch(url).value, externalId).Failure? ==>
      r.outcome == Threw(IndexAnswer(env, col, env.fetch(url).value, externalId).error)
    ensures (env.fetch(url).Success? && IndexAnswer(env, col, env.fetch(url).value, externalId).Success?
             && !FaceFound(env, col, externalId, url)) ==> r.outcome == Completed
    // `addTags` never rejects, but when it resolves to `undefined` reading its
    // `public_id` throws a `TypeError`
    ensures FaceFound(env, col, externalId, url) ==>
      (r.outcome == Completed || r.outcome == Threw(TypeError))
    ensures FaceFound(env, col, externalId, url) ==>
      (r.outcome == Completed <==> env.resourceTags(publicId).Success? && env.explicit(publicId).Success?)
  {
    var head := [IndexFaceCall(publicId, externalId, url)];
    match env.fetch(url)
    case Failure(e) => Run(head, col, Threw(e))
    case Success(image) =>
      match IndexAnswer(env, col, image, externalId)
      case Failure(e) => Run(head, col, Threw(e))
      case Success(answer) =>
        if answer.faceRecords.Some? && |answer.faceRecords.value| > 0 then
          var tag := FaceIdPrefix + answer.faceRecords.value[0].faceId;
          var added := TagStore.AddTags([tag], env.resourceTags(publicId), env.explicit(publicId));
          Run(head + [AddFaceIdTag(publicId, tag)], col, if added.resolved then Completed else Threw(TypeError))
        else
          Run(head, col, Completed)
  }

  /** The `catch` of `processIndexOperation`: a not-found error creates the collection
      once and indexes again; anything else is rethrown. The run holds the calls the
      `catch` makes. */
  function Recover(env: Env, col: Collection, e: Error, publicId: string, externalId: string, url: string): (r: Run)
    ensures e.code != Some(ResourceNotFound) ==> r == Run([], col, Threw(e))
    ensures e.code == Some(ResourceNotFound) ==>
      |r.calls| > 0 && r.calls[0] == CreateCollection && CreateCollection !in r.calls[1..]
    ensures DescribeCollection !in r.calls
    ensures IndexesOnly(r.calls, publicId, externalId, url)
    ensures multiset(r.calls)[DescribeCollection] == 0
    ensures multiset(r.calls)[CreateCollection] == if e.code == Some(ResourceNotFound) then 1 else 0
    ensures col.Present? ==> r.collection == Present
    ensures col.Absent? && r.collection.Present? ==> CreateCollection in r.calls
    // a failed create is rethrown; a successful one is followed by one more `indexFace`
    ensures e.code == Some(ResourceNotFound) && CreateAnswer(env, col).Failure? ==>
      r == Run([CreateCollection], col, Threw(CreateAnswer(env, col).error))
    ensures e.code == Some(ResourceNotFound) && CreateAnswer(env, col).Success? ==>
      var second := IndexFace(env, Present, publicId, externalId, url);
      r == Run([CreateCollection] + second.calls, Present, second.outcome)
  {
    if e.code == Some(ResourceNotFound) then
      match CreateAnswer(env, col)
      case Failure(f) => Run([CreateCollection], col, Threw(f))
      case Success(_) =>
        var second := IndexFace(env, Present, publicId, externalId, url);
        assert ([CreateCollection] + second.calls)[1..] == second.calls;
        IndexesOnlyAppend([CreateCollection], second.calls, publicId, externalId, url);
        Run([CreateCollection] + second.calls, Present, second.outcome)
    else Run([], col, Threw(e))
  }

  /** `processIndexOperation(public_id, tag, url)`: describe the collection, then index;
      a not-found error from either step creates the collection and indexes once more. */
  function ProcessIndexOperation(env: Env, col: Collection, publicId: string, tag: string, url: string): (r: Run)
    ensures |r.calls| > 0 && r.calls[0] == DescribeCollection
    ensures DescribeCollection !in r.calls[1..]
    // whatever the services answer: one describe, at most one create
    ensures multiset(r.calls)[DescribeCollection] == 1
    ensures multiset(r.calls)[CreateCollection] <= 1
    // a retry indexes the same label as the first attempt
    ensures IndexesOnly(r.calls, publicId, GetExternalId(tag), url)
    // the collection only ever goes from absent to present, and only by a create
    ensures col.Present? ==> r.collection == Present
    ensures col.Absent? && r.collection.Present? ==> CreateCollection in r.calls
  {
    var externalId := GetExternalId(tag);
    var made := AfterDescribeAnswer(env, col, publicId, externalId, url);
    AfterDescribe(made, col, publicId, externalId, url);
    Run([DescribeCollection] + made.calls, made.collection, made.outcome)
  }

  /** What follows the describe: the `catch` when it failed, the rest of the `try` when
      it succeeded. */
  function AfterDescribeAnswer(env: Env, col: Collection, publicId: string, externalId: string, url: string): (made: Run)
    ensures DescribeCollection !in made.calls
    ensures multiset(made.calls)[CreateCollection] <= 1
    ensures IndexesOnly(made.calls, publicId, externalId, url)
    ensures col.Present? ==> made.collection == Present
    ensures col.Absent? && made.collection.Present? ==> CreateCollection in made.calls
  {
    match DescribeAnswer(env, col)
    case Failure(e) => Recover(env, col, e, publicId, externalId, url)
    case Success(_) => IndexOrRecover(env, col, publicId, externalId, url)
  }

  /** Putting the describe in front of the rest of an operation keeps that rest's
      guarantees and adds exactly one describe, first. */
  lemma AfterDescribe(made: Run, col: Collection, publicId: string, externalId: string, url: string)
    requires DescribeCollection !in made.calls
    requires multiset(made.calls)[CreateCollection] <= 1
    requires IndexesOnly(made.calls, publicId, externalId, url)
    requires col.Present? ==> made.collection == Present
    requires col.Absent? && made.collection.Present? ==> CreateCollection in made.calls
    ensures var calls := [DescribeCollection] + made.calls;
      && |calls| > 0 && calls[0] == DescribeCollection
      && DescribeCollection !in calls[1..]
      && multiset(calls)[DescribeCollection] == 1
      && multiset(calls)[CreateCollection] <= 1
      && IndexesOnly(calls, publicId, externalId, url)
      && (col.Absent? && made.collection.Present? ==> CreateCollection in calls)
  {
    assert ([DescribeCollection] + made.calls)[1..] == made.calls;
    IndexesOnlyAppend([DescribeCollection], made.calls, publicId, externalId, url);
    CountAppend([DescribeCollection], made.calls, DescribeCollection);
    CountAppend([DescribeCollection], made.calls, CreateCollection);
  }

  /** The `try` body of `processIndexOperation` after a successful describe: index, and
      on a failure run the `catch`. The run holds the calls made after the describe. */
  function IndexOrRecover(env: Env, col: Collection, publicId: string, externalId: string, url: string): (r: Run)
    ensures DescribeCollection !in r.calls
    ensures multiset(r.calls)[DescribeCollection] == 0
    ensures multiset(r.calls)[CreateCollection] <= 1
    ensures IndexesOnly(r.calls, publicId, externalId, url)
    ensures col.Present? ==> r.collection == Present
    ensures col.Absent? && r.collection.Present? ==> CreateCollection in r.calls
    // the `try` covers `indexFace`: a not-found error from it also creates the collection,
    // any other error is rethrown, and success ends the operation
    ensures var first := IndexFace(env, col, publicId, externalId, url);
      && (first.outcome.Completed? ==> r == first)
      && (IsNotFound(first.outcome) ==> CreateCollection in r.calls && multiset(r.calls)[CreateCollection] == 1)
      && (first.outcome.Threw? && !IsNotFound(first.outcome) ==> r == first)
    // after a not-found from `indexFace`, the rest is the `catch`: a failed create is
    // rethrown, a successful one is followed by a second `indexFace`
    ensures var first := IndexFace(env, col, publicId, externalId, url);
      IsNotFound(first.outcome) ==>
        var rec := Recover(env, col, first.outcome.error, publicId, externalId, url);
        r == Run(first.calls + rec.calls, rec.collection, rec.outcome)
  {
    var first := IndexFace(env, col, publicId, externalId, url);
    if first.outcome.Completed? then first
    else
      var rest := Recover(env, col, first.outcome.error, publicId, externalId, url);
      IndexesOnlyAppend(first.calls, rest.calls, publicId, externalId, url);
      Run(first.calls + rest.calls, rest.collection, rest.outcome)
  }

  /** When describe succeeds and indexing does not report the collection missing, the
      operation is one describe and one `indexFace`, with that call's outcome; create is
      never called. */
  lemma DescribeSucceeds(env: Env, col: Collection, publicId: string, tag: string, url: string)
    requires DescribeAnswer(env, col).Success?
    requires !IsNotFound(IndexFace(env, col, publicId, GetExternalId(tag), url).outcome)
    ensures var first := IndexFace(env, col, publicId, GetExternalId(tag), url);
      ProcessIndexOperation(env, col, publicId, tag, url) == Run([DescribeCollection] + first.calls, col, first.outcome)
    ensures CreateCollection !in ProcessIndexOperation(env, col, publicId, tag, url).calls
  {
    var first := IndexFace(env, col, publicId, GetExternalId(tag), url);
    DescribeSuccessIndexes(env, col, publicId, tag, url);
    assert IndexOrRecover(env, col, publicId, GetExternalId(tag), url) == first;
    assert CreateCollection !in [DescribeCollection] + first.calls;
  }

  /** A successful describe leaves the rest of the operation to the `try` body. */
  lemma DescribeSuccessIndexes(env: Env, col: Collection, publicId: string, tag: string, url: string)
    requires DescribeAnswer(env, col).Success?
    ensures var made := IndexOrRecover(env, col, publicId, GetExternalId(tag), url);
      ProcessIndexOperation(env, col, publicId, tag, url) == Run([DescribeCollection] + made.calls, made.collection, made.outcome)
  {
  }

  /** A failed describe leaves the rest of the operation to the `catch`. */
  lemma DescribeFailureRecovers(env: Env, col: Collection, publicId: string, tag: string, url: string)
    requires DescribeAnswer(env, col).Failure?
    ensures var rec := Recover(env, col, DescribeAnswer(env, col).error, publicId, GetExternalId(tag), url);
      ProcessIndexOperation(env, col, publicId, tag, url) == Run([DescribeCollection] + rec.calls, rec.collection, rec.outcome)
  {
  }

  /** When describe reports the collection missing, create is called exactly once; if it
      succeeds the collection is present and `indexFace` runs once on it. */
  lemma DescribeNotFound(env: Env, col: Collection, publicId: string, tag: string, url: string)
    requires DescribeAnswer(env, col).Failure? && DescribeAnswer(env, col).error.code == Some(ResourceNotFound)
    ensures multiset(ProcessIndexOperation(env, col, publicId, tag, url).calls)[CreateCollection] == 1
    ensures CreateAnswer(env, col).Success? ==>
      var second := IndexFace(env, Present, publicId, GetExternalId(tag), url);
      ProcessIndexOperation(env, col, publicId, tag, url)
        == Run([DescribeCollection, CreateCollection] + second.calls, Present, second.outcome)
  {
    DescribeNotFoundCreatesOnce(env, col, publicId, tag, url);
    if CreateAnswer(env, col).Success? {
      DescribeNotFoundRetries(env, col, publicId, tag, url);
    }
  }

  /** The count half of `DescribeNotFound`. */
  lemma DescribeNotFoundCreatesOnce(env: Env, col: Collection, publicId: string, tag: string, url: string)
    requires DescribeAnswer(env, col).Failure? && DescribeAnswer(env, col).error.code == Some(ResourceNotFound)
    ensures multiset(ProcessIndexOperation(env, col, publicId, tag, url).calls)[CreateCollection] == 1
  {
    var rec := Recover(env, col, DescribeAnswer(env, col).error, publicId, GetExternalId(tag), url);
    DescribeFailureRecovers(env, col, publicId, tag, url);
    CountAppend([DescribeCollection], rec.calls, CreateCollection);
  }

  /** The retry half of `DescribeNotFound`. */
  lemma DescribeNotFoundRetries(env: Env, col: Collection, publicId: string, tag: string, url: string)
    requires DescribeAnswer(env, col).Failure? && DescribeAnswer(env, col).error.code == Some(ResourceNotFound)
    requires CreateAnswer(env, col).Success?
    ensures var second := IndexFace(env, Present, publicId, GetExternalId(tag), url);
      ProcessIndexOperation(env, col, publicId, tag, url)
        == Run([DescribeCollection, CreateCollection] + second.calls, Present, second.outcome)
  {
    var second := IndexFace(env, Present, publicId, GetExternalId(tag), url);
    DescribeFailureRecovers(env, col, publicId, tag, url);
    assert [DescribeCollection] + ([CreateCollection] + second.calls) == [DescribeCollection, CreateCollection] + second.calls;
  }

  lemma CountAppend(xs: seq<Call>, ys: seq<Call>, c: Call)
    ensures multiset(xs + ys)[c] == multiset(xs)[c] + multiset(ys)[c]
  {
  }

  /** Any other describe error is rethrown before anything else happens. */
  lemma DescribeFails(env: Env, col: Collection, publicId: string, tag: string, url: string)
    requires DescribeAnswer(env, col).Failure? && DescribeAnswer(env, col).error.code != Some(ResourceNotFound)
    ensures ProcessIndexOperation(env, col, publicId, tag, url)
         == Run([DescribeCollection], col, Threw(DescribeAnswer(env, col).error))
  {
  }

  /** The services never report a missing collection except through its state. */
  ghost predicate NoSpuriousNotFound(env: Env) {
    && (forall u :: env.fetch(u).Failure? ==> env.fetch(u).error.code != Some(ResourceNotFound))
    && (forall b, x :: env.indexFaces(b, x).Failure? ==> env.indexFaces(b, x).error.code != Some(ResourceNotFound))
  }

  /** With no spurious not-found errors, indexing on a present collection never reports
      the collection missing. */
  lemma PresentIndexingFound(env: Env, publicId: string, externalId: string, url: string)
    requires NoSpuriousNotFound(env)
    ensures !IsNotFound(IndexFace(env, Present, publicId, externalId, url).outcome)
  {
    var r := IndexFace(env, Present, publicId, externalId, url);
    if env.fetch(url).Success? {
      var image := env.fetch(url).value;
      assert IndexAnswer(env, Present, image, externalId) == env.indexFaces(image, externalId);
    }
  }

  /** With no spurious not-found errors, an operation on a present collection never
      creates it and leaves it present. */
  lemma PresentOperationNeverCreates(env: Env, publicId: string, tag: string, url: string)
    requires env.describeFault.None? && NoSpuriousNotFound(env)
    ensures CreateCollection !in ProcessIndexOperation(env, Present, publicId, tag, url).calls
    ensures ProcessIndexOperation(env, Present, publicId, tag, url).collection == Present
  {
    PresentIndexingFound(env, publicId, GetExternalId(tag), url);
    DescribeSucceeds(env, Present, publicId, tag, url);
  }

  /** Bootstrap is idempotent: two operations in a row on an absent collection create it
      once, during the first; the second finds it and only indexes. */
  lemma BootstrapIdempotent(env: Env, publicId: string, tag: string, url: string)
    requires env.describeFault.None? && env.createFault.None?
    requires NoSpuriousNotFound(env)
    ensures var first := ProcessIndexOperation(env, Absent, publicId, tag, url);
      var second := ProcessIndexOperation(env, first.collection, publicId, tag, url);
      && first.collection == Present
      && multiset(first.calls + second.calls)[CreateCollection] == 1
      && second == Run([DescribeCollection] + IndexFace(env, Present, publicId, GetExternalId(tag), url).calls,
                       Present, IndexFace(env, Present, publicId, GetExternalId(tag), url).outcome)
  {
    var first := ProcessIndexOperation(env, Absent, publicId, tag, url);
    DescribeNotFound(env, Absent, publicId, tag, url);
    assert first.collection == Present;
    PresentIndexingFound(env, publicId, GetExternalId(tag), url);
    DescribeSucceeds(env, Present, publicId, tag, url);
    var second := ProcessIndexOperation(env, Present, publicId, tag, url);
    assert multiset(first.calls + second.calls) == multiset(first.calls) + multiset(second.calls);
  }

  /** Indexing an image in which the engine registers a face calls `addTags` with that
      face's id and completes, once the asset's tags can be read and written. */
  lemma IndexFaceRegisters(env: Env, col: Collection, publicId: string, externalId: string, url: string, faceId: string)
    requires col.Present? && env.fetch(url).Success?
    requires env.indexFaces(env.fetch(url).value, externalId) == Success(IndexResponse(Some([FaceRecord(faceId)])))
    requires env.resourceTags(publicId).Success? && env.explicit(publicId).Success?
    ensures IndexFace(env, col, publicId, externalId, url)
         == Run([IndexFaceCall(publicId, externalId, url), AddFaceIdTag(publicId, FaceIdPrefix + faceId)], col, Completed)
  {
    assert FaceFound(env, col, externalId, url);
    assert FoundFaceId(env, col, externalId, url) == faceId;
  }

  /** On a present collection, an operation whose image registers a face describes,
      indexes and tags, and completes. */
  lemma OperationRegisters(env: Env, publicId: string, tag: string, url: string, faceId: string)
    requires env.describeFault.None? && env.fetch(url).Success?
    requires env.indexFaces(env.fetch(url).value, GetExternalId(tag)) == Success(IndexResponse(Some([FaceRecord(faceId)])))
    requires env.resourceTags(publicId).Success? && env.explicit(publicId).Success?
    ensures ProcessIndexOperation(env, Present, publicId, tag, url)
         == Run([DescribeCollection, IndexFaceCall(publicId, GetExternalId(tag), url),
                 AddFaceIdTag(publicId, FaceIdPrefix + faceId)], Present, Completed)
  {
    var externalId := GetExternalId(tag);
    var indexed := IndexFaceCall(publicId, externalId, url);
    var tagged := AddFaceIdTag(publicId, FaceIdPrefix + faceId);
    IndexFaceRegisters(env, Present, publicId, externalId, url, faceId);
    DescribeSucceeds(env, Present, publicId, tag, url);
    PrependOne(DescribeCollection, indexed, tagged);
  }

  /** A call put in front of two calls gives the three in order. */
  lemma PrependOne(a: Call, b: Call, c: Call)
    ensures [a] + [b, c] == [a, b, c]
  {
  }
}

=== FILE: outcomes.dfy ===
/** Values standing in for JavaScript's `undefined` and for settled promises. */
module Outcomes {

  /** `None` plays the part of `undefined` (or a missing property). */
  datatype Option<+T> = None | Some(value: T)

  /** An error as the handler sees it. The only property the code ever inspects is
      `error.code`; `None` is the code of an error that has none, such as a
      `TypeError` or an HTTP failure. */
  datatype Error = Error(code: Option<string>)

  /** A settled promise: fulfilled with a value or rejected with an error. */
  datatype Result<+T> = Success(value: T) | Failure(error: Error)

  const ResourceNotFound: string := "ResourceNotFoundException"
  const ResourceAlreadyExists: string := "ResourceAlreadyExistsException"

  /** What reading a property of `undefined` throws. */
  const TypeError: Error := Error(None)
}

=== FILE: router.dfy ===
/** The webhook handler: it reads a notification, plans what to do, and runs the plan
    against the services. */
module Router {
  import opened Outcomes
  import opened Text
  import opened Services
  import opened ExternalId
  import opened Indexer
  import FaceSearch

  /** The handler's configuration: the folders, the label prefix, and what the canonical
      image URL is built from. */
  datatype Config = Config(
    trainingFolder: string,
    faceRecognitionFolder: string,
    faceLabelTagPrefix: string,
    cloudName: string,
    transformationParams: string)

  /** `cloudinaryBaseUrl`: the delivery host, the cloud name, then the transformation,
      ending in a `/`. */
  function BaseUrl(cfg: Config): (base: string)
    ensures |base| == 27 + |cfg.cloudName| + 14 + |cfg.transformationParams| + 1
    ensures base[..27] == "https://res.cloudinary.com/"
    ensures base[27 + |cfg.cloudName|..27 + |cfg.cloudName| + 14] == "/image/upload/"
    ensures base[27..27 + |cfg.cloudName|] == cfg.cloudName
    ensures base[|base| - 1 - |cfg.transformationParams|..|base| - 1] == cfg.transformationParams
    ensures base[|base| - 1] == '/'
  {
    "https://res.cloudinary.com/" + cfg.cloudName + "/image/upload/" + cfg.transformationParams + "/"
  }

  /** The canonical rendition of an asset: `cloudinaryBaseUrl + public_id + '.jpg'`. */
  function ImageUrl(cfg: Config, publicId: string): (url: string)
    ensures |url| == |BaseUrl(cfg)| + |publicId| + 4
    ensures url[..|BaseUrl(cfg)|] == BaseUrl(cfg)
    ensures url[|BaseUrl(cfg)|..|BaseUrl(cfg)| + |publicId|] == publicId
    ensures url[|url| - 4..] == ".jpg"
  {
    BaseUrl(cfg) + publicId + ".jpg"
  }

  /** Different assets are fetched from different URLs. */
  lemma ImageUrlInjective(cfg: Config, a: string, b: string)
    requires ImageUrl(cfg, a) == ImageUrl(cfg, b)
    ensures a == b
  {
    var n := |BaseUrl(cfg)|;
    assert a == ImageUrl(cfg, a)[n..n + |a|];
  }

  /** One entry of `resources` in a tags-changed notification. */
  datatype ChangedResource = ChangedResource(publicId: string, added: Option<seq<string>>)

  /** The notification, by `notification_type`. */
  datatype Event =
    | ResourceTagsChanged(resources: seq<ChangedResource>)
    | Upload(publicId: string, tags: Option<seq<string>>)
    | Unrecognised(notificationType: string)

  /** What the handler decides to do: index an asset under a tag (the argument passed to
      `processIndexOperation`), or search an uploaded image. */
  datatype Action =
    | Index(publicId: string, tag: string, url: string)
    | Search(publicId: string, url: string)

  /** The position of the first tag starting with `prefix`: the loop and its `break`. */
  function FirstLabel(tags: seq<string>, prefix: string): (r: Option<nat>)
    ensures r.Some? ==> r.value < |tags| && StartsWith(tags[r.value], prefix)
    ensures r.Some? ==> forall j :: 0 <= j < r.value ==> !StartsWith(tags[j], prefix)
    ensures r.None? <==> forall j :: 0 <= j < |tags| ==> !StartsWith(tags[j], prefix)
  {
    if |tags| == 0 then None
    else if StartsWith(tags[0], prefix) then Some(0)
    else
      match FirstLabel(tags[1..], prefix)
      case None => None
      case Some(k) => Some(k + 1)
  }

  /** `tags` holds a tag starting with `prefix`, first at position `i`. */
  predicate FirstLabelAt(tags: seq<string>, prefix: string, i: int) {
    && 0 <= i < |tags|
    && StartsWith(tags[i], prefix)
    && forall j :: 0 <= j < i ==> !StartsWith(tags[j], prefix)
  }

  /** The plan for one resource of a tags-changed notification: a training asset with an
      `added` list is indexed under its first label, stripped up to its first `:`. */
  function PlanResource(cfg: Config, r: ChangedResource): (actions: seq<Action>)
    ensures |actions| <= 1
    ensures |actions| == 1 <==>
      && StartsWith(r.publicId, cfg.trainingFolder)
      && r.added.Some?
      && exists i :: 0 <= i < |r.added.value| && StartsWith(r.added.value[i], cfg.faceLabelTagPrefix)
    ensures |actions| == 1 ==> exists i ::
      && FirstLabelAt(r.added.value, cfg.faceLabelTagPrefix, i)
      && actions[0] == Index(r.publicId, AfterFirst(r.added.value[i], ':'), ImageUrl(cfg, r.publicId))
  {
    if StartsWith(r.publicId, cfg.trainingFolder) && r.added.Some? then
      match FirstLabel(r.added.value, cfg.faceLabelTagPrefix)
      case None => []
      case Some(i) =>
        assert FirstLabelAt(r.added.value, cfg.faceLabelTagPrefix, i);
        [Index(r.publicId, AfterFirst(r.added.value[i], ':'), ImageUrl(cfg, r.publicId))]
    else []
  }

  /** The plans of the resources, one after the other. */
  function PlanResources(cfg: Config, rs: seq<ChangedResource>): (actions: seq<Action>)
    ensures |actions| <= |rs|
    ensures forall a :: a in actions ==> a.Index?
  {
    if |rs| == 0 then [] else PlanResource(cfg, rs[0]) + PlanResources(cfg, rs[1..])
  }

  /** The plan of an upload: a training asset with tags is indexed under its first label
      (the whole tag); otherwise an asset under the recognition folder is searched. */
  function PlanUpload(cfg: Config, publicId: string, tags: Option<seq<string>>): (actions: seq<Action>)
    ensures |actions| <= 1
    ensures (exists url :: Search(publicId, url) in actions) <==>
      && !(StartsWith(publicId, cfg.trainingFolder) && tags.Some? && |tags.value| > 0)
      && StartsWith(publicId, cfg.faceRecognitionFolder)
    ensures forall a :: a in actions && a.Search? ==> a == Search(publicId, ImageUrl(cfg, publicId))
    ensures forall a :: a in actions && a.Index? ==>
      && StartsWith(publicId, cfg.trainingFolder)
      && tags.Some?
      && exists i :: FirstLabelAt(tags.value, cfg.faceLabelTagPrefix, i)
           && a == Index(publicId, tags.value[i], ImageUrl(cfg, publicId))
    ensures
      (&& StartsWith(publicId, cfg.trainingFolder)
       && tags.Some?
       && exists i :: 0 <= i < |tags.value| && StartsWith(tags.value[i], cfg.faceLabelTagPrefix))
      ==> |actions| == 1 && actions[0].Index?
  {
    var url := ImageUrl(cfg, publicId);
    if StartsWith(publicId, cfg.trainingFolder) && tags.Some? && |tags.value| > 0 then
      match FirstLabel(tags.value, cfg.faceLabelTagPrefix)
      case None => []
      case Some(i) =>
        assert FirstLabelAt(tags.value, cfg.faceLabelTagPrefix, i);
        [Index(publicId, tags.value[i], url)]
    else if StartsWith(publicId, cfg.faceRecognitionFolder) then
      assert Search(publicId, url) in [Search(publicId, url)];
      [Search(publicId, url)]
    else []
  }

  /** The handler's decision for a notification: tags-changed notifications only index,
      an upload yields at most one action about the uploaded asset, and any other
      notification yields none. */
  function Plan(cfg: Config, e: Event): (actions: seq<Action>)
    ensures e.ResourceTagsChanged? ==> forall a :: a in actions ==> a.Index?
    ensures e.Upload? ==> |actions| <= 1 && forall a :: a in actions ==> a.publicId == e.publicId
    ensures e.Unrecognised? ==> actions == []
  {
    match e
    case ResourceTagsChanged(rs) => PlanResources(cfg, rs)
    case Upload(publicId, tags) => PlanUpload(cfg, publicId, tags)
    case Unrecognised(_) => []
  }

  /** Running a plan in order. A failed index operation is caught and logged, and the
      run goes on; a failed search rejects the invocation. A search that finds names
      calls `addTags` with them; `addTags` never rejects. */
  function Execute(env: Env, col: Collection, actions: seq<Action>): (r: Run)
    ensures col.Present? ==> r.collection.Present?
    ensures r.outcome.Threw? ==> exists a :: a in actions && a.Search?
    decreases |actions|
  {
    if |actions| == 0 then Run([], col, Completed)
    else
      match actions[0]
      case Index(publicId, tag, url) =>
        var op := ProcessIndexOperation(env, col, publicId, tag, url);
        var rest := Execute(env, op.collection, actions[1..]);
        Run(op.calls + rest.calls, rest.collection, rest.outcome)
      case Search(publicId, url) =>
        match FaceSearch.Search(env, col, url)
        case Failure(e) =>
          assert actions[0] in actions;
          Run([], col, Threw(e))
        case Success(names) =>
          var tagging := if |names| > 0 then [AddNameTags(publicId, names)] else [];
          var rest := Execute(env, col, actions[1..]);
          Run(tagging + rest.calls, rest.collection, rest.outcome)
  }

  /** `handler(event)`: only a search of an upload under the recognition folder can fail
      the invocation, and an existing collection is never lost. */
  function Handle(cfg: Config, env: Env, col: Collection, e: Event): (r: Run)
    ensures r.outcome.Threw? ==> e.Upload? && StartsWith(e.publicId, cfg.faceRecognitionFolder)
    ensures e.Unrecognised? ==> r == Run([], col, Completed)
    ensures col.Present? ==> r.collection.Present?
  {
    Execute(env, col, Plan(cfg, e))
  }

  // ---------------------------------------------------------------------------
  // Properties of the plan

  /** Resources are planned independently and in order. */
  lemma {:induction false} PlanResourcesAppend(cfg: Config, xs: seq<ChangedResource>, ys: seq<ChangedResource>)
    ensures PlanResources(cfg, xs + ys) == PlanResources(cfg, xs) + PlanResources(cfg, ys)
  {
    if |xs| == 0 {
      assert xs + ys == ys;
    } else {
      assert (xs + ys)[1..] == xs[1..] + ys;
      PlanResourcesAppend(cfg, xs[1..], ys);
    }
  }

  /** A one-resource notification plans what that resource plans. */
  lemma PlanResourcesOne(cfg: Config, r: ChangedResource)
    ensures PlanResources(cfg, [r]) == PlanResource(cfg, r)
  {
    assert [r][1..] == [];
    assert PlanResource(cfg, r) + [] == PlanResource(cfg, r);
  }

  /** A notification of an unrecognised type does nothing. */
  lemma UnrecognisedIsIgnored(cfg: Config, env: Env, col: Collection, kind: string)
    ensures Handle(cfg, env, col, Unrecognised(kind)) == Run([], col, Completed)
  {
  }

  // ---------------------------------------------------------------------------
  // Properties of running a plan

  /** Every planned index operation is attempted, each starting with its own describe,
      and a training plan never fails the invocation however its operations end. */
  lemma {:induction false} EveryIndexAttempted(env: Env, col: Collection, actions: seq<Action>)
    requires forall a :: a in actions ==> a.Index?
    ensures Execute(env, col, actions).outcome == Completed
    ensures multiset(Execute(env, col, actions).calls)[DescribeCollection] == |actions|
    decreases |actions|
  {
    if |actions| > 0 {
      var a := actions[0];
      var op := ProcessIndexOperation(env, col, a.publicId, a.tag, a.url);
      assert forall b :: b in actions[1..] ==> b in actions;
      EveryIndexAttempted(env, op.collection, actions[1..]);
    }
  }

  /** Index operations run one after another, each on the collection the previous one
      left: once the collection exists, no later operation creates it again. */
  lemma {:induction false} PresentIndexesNeverCreate(env: Env, actions: seq<Action>)
    requires forall a :: a in actions ==> a.Index?
    requires env.describeFault.None? && NoSpuriousNotFound(env)
    ensures CreateCollection !in Execute(env, Present, actions).calls
    ensures Execute(env, Present, actions).collection == Present
    decreases |actions|
  {
    if |actions| > 0 {
      var a := actions[0];
      PresentOperationNeverCreates(env, a.publicId, a.tag, a.url);
      assert forall b :: b in actions[1..] ==> b in actions;
      PresentIndexesNeverCreate(env, actions[1..]);
    }
  }

  /** A training plan on a missing collection creates it exactly once, in its first
      operation, however many resources it indexes. */
  lemma IndexPlanCreatesOnce(env: Env, actions: seq<Action>)
    requires |actions| > 0 && forall a :: a in actions ==> a.Index?
    requires env.describeFault.None? && env.createFault.None? && NoSpuriousNotFound(env)
    ensures multiset(Execute(env, Absent, actions).calls)[CreateCollection] == 1
  {
    var a := actions[0];
    var op := ProcessIndexOperation(env, Absent, a.publicId, a.tag, a.url);
    DescribeNotFound(env, Absent, a.publicId, a.tag, a.url);
    assert op.collection == Present;
    assert forall b :: b in actions[1..] ==> b in actions;
    PresentIndexesNeverCreate(env, actions[1..]);
    var rest := Execute(env, Present, actions[1..]);
    assert Execute(env, Absent, actions).calls == op.calls + rest.calls;
    CountAppend(op.calls, rest.calls, CreateCollection);
  }

  /** A tags-changed notification never fails the invocation, and every resource that
      plans an index operation gets one, whatever happened to the earlier ones. */
  lemma TagsChangedIndexesEach(cfg: Config, env: Env, col: Collection, rs: seq<ChangedResource>)
    ensures Handle(cfg, env, col, ResourceTagsChanged(rs)).outcome == Completed
    ensures multiset(Handle(cfg, env, col, ResourceTagsChanged(rs)).calls)[DescribeCollection]
         == |PlanResources(cfg, rs)|
  {
    EveryIndexAttempted(env, col, PlanResources(cfg, rs));
  }

  /** The recognition branch: the invocation fails exactly when the search does, and the
      names are passed to `addTags` exactly when the search finds at least one. */
  lemma RecognitionOutcome(cfg: Config, env: Env, col: Collection, publicId: string, tags: Option<seq<string>>)
    requires PlanUpload(cfg, publicId, tags) == [Search(publicId, ImageUrl(cfg, publicId))]
    ensures var found := FaceSearch.Search(env, col, ImageUrl(cfg, publicId));
      var run := Handle(cfg, env, col, Upload(publicId, tags));
      && (found.Failure? ==> run == Run([], col, Threw(found.error)))
      && (found.Success? && |found.value| == 0 ==> run == Run([], col, Completed))
      && (found.Success? && |found.value| > 0 ==> run == Run([AddNameTags(publicId, found.value)], col, Completed))
  {
    var actions := [Search(publicId, ImageUrl(cfg, publicId))];
    assert Handle(cfg, env, col, Upload(publicId, tags)) == Execute(env, col, actions);
    assert actions[1..] == [];
    var rest := Execute(env, col, actions[1..]);
    assert rest == Run([], col, Completed);
  }

  /** A plan of one index action runs that operation alone. */
  lemma ExecuteOneIndex(env: Env, col: Collection, publicId: string, tag: string, url: string)
    ensures var op := ProcessIndexOperation(env, col, publicId, tag, url);
      Execute(env, col, [Index(publicId, tag, url)]) == Run(op.calls, op.collection, Completed)
  {
    var actions := [Index(publicId, tag, url)];
    assert actions[1..] == [];
    var op := ProcessIndexOperation(env, col, publicId, tag, url);
    assert Execute(env, op.collection, actions[1..]) == Run([], op.collection, Completed);
    assert op.calls + [] == op.calls;
  }

  /** A training upload carrying one face label plans exactly one index action. */
  lemma PlanTrainingUpload(cfg: Config, env: Env, col: Collection, publicId: string, tag: string)
    requires StartsWith(publicId, cfg.trainingFolder) && StartsWith(tag, cfg.faceLabelTagPrefix)
    ensures Plan(cfg, Upload(publicId, Some([tag]))) == [Index(publicId, tag, ImageUrl(cfg, publicId))]
    ensures Handle(cfg, env, col, Upload(publicId, Some([tag])))
         == Execute(env, col, [Index(publicId, tag, ImageUrl(cfg, publicId))])
  {
    assert FirstLabel([tag], cfg.faceLabelTagPrefix) == Some(0);
  }

  /** A training upload carrying one face label, on an existing collection whose engine
      registers a face and whose asset tags can be read and written: one describe, one
      `indexFace` under the label's external id, and one `addTags` with the face id. */
  lemma TrainingUpload(cfg: Config, env: Env, publicId: string, tag: string, image: Bytes, faceId: string)
    requires StartsWith(publicId, cfg.trainingFolder) && StartsWith(tag, cfg.faceLabelTagPrefix)
    requires env.describeFault.None?
    requires env.fetch(ImageUrl(cfg, publicId)) == Success(image)
    requires env.indexFaces(image, GetExternalId(tag)) == Success(IndexResponse(Some([FaceRecord(faceId)])))
    requires env.resourceTags(publicId).Success? && env.explicit(publicId).Success?
    ensures Handle(cfg, env, Present, Upload(publicId, Some([tag])))
         == Run([DescribeCollection, IndexFaceCall(publicId, GetExternalId(tag), ImageUrl(cfg, publicId)),
                 AddFaceIdTag(publicId, FaceIdPrefix + faceId)], Present, Completed)
  {
    var url := ImageUrl(cfg, publicId);
    PlanTrainingUpload(cfg, env, Present, publicId, tag);
    ExecuteOneIndex(env, Present, publicId, tag, url);
    OperationRegisters(env, publicId, tag, url, faceId);
  }
}

=== FILE: scenarios.dfy ===
/** Two complete invocations, one per branch of the handler, traced call by call. */
module Scenarios {
  import opened Outcomes
  import opened Text
  import opened Geometry
  import opened Services
  import opened ExternalId
  import opened Indexer
  import opened Router
  import FaceSearch

  /** Two space-free words joined by a space encode with one placeholder between them. */
  lemma TwoWordReplace(first: string, last: string)
    requires ' ' !in first && ' ' !in last
    ensures ReplaceSpaces(first + " " + last) == first + Placeholder + last
  {
    var space := " ";
    assert ReplaceSpaces(space) == Placeholder by {
      assert space[0] == ' ' && space[1..] == [];
    }
    ReplaceSpacesAppend(first, space);
    ReplaceSpacesAppend(first + space, last);
  }

  /** A label of two space-separated words gets one placeholder between them. */
  lemma TwoWordExternalId(prefix: string, first: string, last: string)
    requires ':' !in prefix && ' ' !in first && ' ' !in last
    ensures GetExternalId(prefix + ":" + first + " " + last) == first + Placeholder + last
  {
    var name := first + " " + last;
    assert prefix + ":" + first + " " + last == prefix + [':'] + name;
    AfterFirstOfJoin(prefix, ':', name);
    TwoWordReplace(first, last);
  }

  // The small lemmas below each take the scenario's string literals as parameters pinned
  // by a `requires`, and state one fact about them. Kept apart like this, each literal is
  // unfolded character by character in one small proof only; the scenarios then reason
  // about the parameters, which the prover does not unfold.

  /** The label prefix holds no `:`. */
  lemma NoColon(prefix: string)
    requires prefix == "faceLabel"
    ensures ':' !in prefix
  {
    forall i | 0 <= i < |prefix| ensures prefix[i] != ':' { }
  }

  /** The scenarios' name parts hold no space. */
  lemma NoSpace(word: string)
    requires word in {"Alice", "Smith", "Bob", "Lee"}
    ensures ' ' !in word
  {
    forall i | 0 <= i < |word| ensures word[i] != ' ' { }
  }

  /** The training tag splits into the prefix, `:` and the two name parts. */
  lemma AliceParts(tag: string, prefix: string, first: string, last: string, externalId: string)
    requires tag == "faceLabel:Alice Smith" && prefix == "faceLabel" && first == "Alice" && last == "Smith"
    requires externalId == "Alice.-.-.-Smith"
    ensures tag == prefix + ":" + first + " " + last
    ensures tag[..9] == prefix
    ensures externalId == first + Placeholder + last
  {
  }

  /** The label `faceLabel:Alice Smith` is a face label whose external id is `Alice.-.-.-Smith`. */
  lemma AliceLabel(tag: string, externalId: string, prefix: string, first: string, last: string)
    requires tag == "faceLabel:Alice Smith" && externalId == "Alice.-.-.-Smith"
    requires prefix == "faceLabel" && first == "Alice" && last == "Smith"
    ensures StartsWith(tag, prefix)
    ensures GetExternalId(tag) == externalId
  {
    NoColon(prefix);
    NoSpace(first);
    NoSpace(last);
    AliceParts(tag, prefix, first, last, externalId);
    TwoWordExternalId(prefix, first, last);
  }

  /** The training asset is under the training folder. */
  lemma TrainingFolderHolds(id: string, folder: string)
    requires id == "training/alice" && folder == "training"
    ensures StartsWith(id, folder)
  {
    assert id[..8] == folder;
  }

  /** The face-id tag of face `F1` is `faceId:F1`. */
  lemma FaceIdTagOf(faceId: string, faceTag: string)
    requires faceId == "F1" && faceTag == "faceId:F1"
    ensures FaceIdPrefix + faceId == faceTag
  {
  }

  /** An upload of `training/alice` tagged `faceLabel:Alice Smith`, on an existing
      collection whose engine registers face `F1` and whose asset tags can be read and
      written: the image is indexed under `Alice.-.-.-Smith` and `addTags` is called
      with `faceId:F1`. */
  lemma TrainingScenario(cfg: Config, env: Env, image: Bytes, id: string, tag: string, externalId: string, faceId: string, faceTag: string)
    requires cfg.trainingFolder == "training" && cfg.faceLabelTagPrefix == "faceLabel"
    requires id == "training/alice" && tag == "faceLabel:Alice Smith" && externalId == "Alice.-.-.-Smith"
    requires faceId == "F1" && faceTag == "faceId:F1"
    requires env.describeFault.None?
    requires env.fetch(ImageUrl(cfg, id)) == Success(image)
    requires env.indexFaces(image, externalId) == Success(IndexResponse(Some([FaceRecord(faceId)])))
    requires env.resourceTags(id).Success? && env.explicit(id).Success?
    ensures var run := Handle(cfg, env, Present, Upload(id, Some([tag])));
      && run.outcome == Completed
      && run.calls == [DescribeCollection, IndexFaceCall(id, externalId, ImageUrl(cfg, id)), AddFaceIdTag(id, faceTag)]
  {
    TrainingFolderHolds(id, cfg.trainingFolder);
    AliceLabel(tag, externalId, cfg.faceLabelTagPrefix, "Alice", "Smith");
    TrainingUpload(cfg, env, id, tag, image, faceId);
    FaceIdTagOf(faceId, faceTag);
  }

  /** The recognition asset is under the recognition folder. */
  lemma RecognitionFolderHolds(id: string, folder: string)
    requires id == "assets/photo1" && folder == "assets"
    ensures StartsWith(id, folder)
  {
    assert id[..6] == folder;
  }

  /** The matched external id is the two name parts joined by the placeholder. */
  lemma BobParts(name: string, matchId: string, first: string, last: string)
    requires name == "Bob Lee" && matchId == "Bob.-.-.-Lee" && first == "Bob" && last == "Lee"
    ensures name == first + " " + last
    ensures matchId == first + Placeholder + last
    ensures '-' !in name
  {
    forall i | 0 <= i < |name| ensures name[i] != '-' { }
  }

  /** The match `Bob.-.-.-Lee` reads back as `Bob Lee`. */
  lemma BobName(name: string, matchId: string)
    requires name == "Bob Lee" && matchId == "Bob.-.-.-Lee"
    ensures Decode(matchId) == name
  {
    var first, last := "Bob", "Lee";
    BobParts(name, matchId, first, last);
    NoSpace(first);
    NoSpace(last);
    TwoWordReplace(first, last);
    DecodeReplaceSpaces(name);
  }

  /** An untagged upload of `assets/photo1` with one sharp face whose crop matches the
      face indexed as `Bob.-.-.-Lee`: `addTags` is called with the name `Bob Lee`. */
  lemma RecognitionScenario(cfg: Config, env: Env, id: string, image: Bytes, dims: Dims, b: BoundingBox,
                            crop: Bytes, matchId: string, name: string)
    requires cfg.faceRecognitionFolder == "assets"
    requires id == "assets/photo1" && matchId == "Bob.-.-.-Lee" && name == "Bob Lee"
    requires env.fetch(ImageUrl(cfg, id)) == Success(image)
    requires env.detectFaces(image) == Success(DetectResponse(Some([FaceDetail(b, 90.0)])))
    requires env.metadata(image) == Success(dims)
    requires env.extract(image, Denormalise(b, dims)) == Success(crop)
    requires env.searchFacesByImage(crop) == Success(SearchResponse(Some([FaceMatch(Some(Face(matchId)))])))
    ensures Handle(cfg, env, Present, Upload(id, None)) == Run([AddNameTags(id, [Some(name)])], Present, Completed)
  {
    var url := ImageUrl(cfg, id);
    RecognitionFolderHolds(id, cfg.faceRecognitionFolder);
    assert PlanUpload(cfg, id, None) == [Search(id, url)];
    RecognitionOutcome(cfg, env, Present, id, None);
    var d := FaceDetail(b, 90.0);
    FaceSearch.DetectFacesOne(d);
    assert FaceSearch.DetectFaces(DetectResponse(Some([d]))) == [b];
    var answer := SearchResponse(Some([FaceMatch(Some(Face(matchId)))]));
    BobName(name, matchId);
    assert FaceSearch.TopName(Some(answer)) == Some(name);
    assert FaceSearch.PerBox(env, Present, image, dims, b) == [Some(name)];
    var boxes := [b];
    assert boxes[..0] == [];
    assert FaceSearch.AllBoxes(env, Present, image, dims, boxes) == [Some(name)];
  }
}

=== FILE: search.dfy ===
/** The recognition pipeline behind `search`: detect, keep the sharp faces, crop each,
    search each crop, and read back the matched names. Each fan-out is an
    order-preserving map whose items settle independently. */
module FaceSearch {
  import opened Outcomes
  import opened Seqs
  import opened Geometry
  import opened ExternalId
  import opened Services

  /** `sharpness_threshold`. */
  const SharpnessThreshold: real := 40.0

  predicate IsSharp(d: FaceDetail) {
    d.sharpness >= SharpnessThreshold
  }

  function BoxOf(d: FaceDetail): BoundingBox {
    d.boundingBox
  }

  /** `detectFaces` after the service answered: the boxes of the detections whose
      sharpness reaches the threshold, in detection order; none when `FaceDetails` is
      missing or empty. */
  function DetectFaces(resp: DetectResponse): (boxes: seq<BoundingBox>)
    ensures resp.faceDetails.None? ==> boxes == []
    ensures resp.faceDetails.Some? ==> |boxes| <= |resp.faceDetails.value|
    ensures resp.faceDetails.Some? ==>
      forall b :: b in boxes ==>
        exists d :: d in resp.faceDetails.value && IsSharp(d) && d.boundingBox == b
    ensures resp.faceDetails.Some? ==>
      forall d :: d in resp.faceDetails.value && IsSharp(d) ==> d.boundingBox in boxes
  {
    match resp.faceDetails
    case None => []
    case Some(ds) =>
      if |ds| == 0 then []
      else
        var kept := Filter(IsSharp, ds);
        assert forall d :: d in kept ==> BoxOf(d) in Map(BoxOf, kept) by {
          forall d | d in kept ensures BoxOf(d) in Map(BoxOf, kept) {
            var i :| 0 <= i < |kept| && kept[i] == d;
            assert Map(BoxOf, kept)[i] == BoxOf(d);
          }
        }
        Map(BoxOf, kept)
  }

  /** Detection results over consecutive runs of details concatenate: the filter keeps
      each detail on its own merits and in its place. */
  lemma DetectFacesAppend(xs: seq<FaceDetail>, ys: seq<FaceDetail>)
    ensures DetectFaces(DetectResponse(Some(xs + ys)))
         == DetectFaces(DetectResponse(Some(xs))) + DetectFaces(DetectResponse(Some(ys)))
  {
    DetectFacesFiltered(xs);
    DetectFacesFiltered(ys);
    DetectFacesFiltered(xs + ys);
    FilterAppend(IsSharp, xs, ys);
    MapAppend(BoxOf, Filter(IsSharp, xs), Filter(IsSharp, ys));
  }

  /** An empty `FaceDetails` gives what filtering it would give: nothing. */
  lemma DetectFacesFiltered(ds: seq<FaceDetail>)
    ensures DetectFaces(DetectResponse(Some(ds))) == Map(BoxOf, Filter(IsSharp, ds))
  {
    if |ds| == 0 {
      assert Filter(IsSharp, ds) == [];
    }
  }

  /** A single detail is kept exactly when it is sharp enough. */
  lemma DetectFacesOne(d: FaceDetail)
    ensures DetectFaces(DetectResponse(Some([d]))) == if IsSharp(d) then [d.boundingBox] else []
  {
    assert [d][1..] == [];
  }

  /** Sharpness scores 10, 39, 40 and 90 keep the boxes scoring 40 and 90. */
  lemma SharpnessExample(d1: FaceDetail, d2: FaceDetail, d3: FaceDetail, d4: FaceDetail)
    requires d1.sharpness == 10.0 && d2.sharpness == 39.0 && d3.sharpness == 40.0 && d4.sharpness == 90.0
    ensures DetectFaces(DetectResponse(Some([d1, d2, d3, d4]))) == [d3.boundingBox, d4.boundingBox]
  {
    var front, back := [d1, d2], [d3, d4];
    assert [d1, d2, d3, d4] == front + back;
    assert front == [d1] + [d2] && back == [d3] + [d4];
    DetectFacesAppend(front, back);
    DetectFacesAppend([d1], [d2]);
    DetectFacesAppend([d3], [d4]);
    DetectFacesOne(d1);
    DetectFacesOne(d2);
    DetectFacesOne(d3);
    DetectFacesOne(d4);
  }

  /** `extractFaces` followed by `Promise.all`: one crop attempt per box, in box order;
      a failed extraction settles as `None`. */
  function ExtractFaces(env: Env, image: Bytes, dims: Dims, boxes: seq<BoundingBox>): (crops: seq<Option<Bytes>>)
    ensures |crops| == |boxes|
    ensures forall i :: 0 <= i < |boxes| ==>
      (crops[i].Some? <==> env.extract(image, Denormalise(boxes[i], dims)).Success?)
    ensures forall i :: 0 <= i < |boxes| && crops[i].Some? ==>
      crops[i].value == env.extract(image, Denormalise(boxes[i], dims)).value
  {
    Map((b: BoundingBox) => Settle(env.extract(image, Denormalise(b, dims))), boxes)
  }

  predicate IsPresent(o: Option<Bytes>) {
    o.Some?
  }

  /** The crop a settled extraction carries (never applied to a failed one). */
  function CropOf(o: Option<Bytes>): Bytes {
    match o
    case Some(c) => c
    case None => []
  }

  /** `croppedFaces.filter(element => element != null)`: the successful crops, in order. */
  function PresentCrops(crops: seq<Option<Bytes>>): (r: seq<Bytes>)
    ensures |r| <= |crops|
    ensures forall c :: Some(c) in crops ==> c in r
  {
    var kept := Filter(IsPresent, crops);
    assert forall c :: Some(c) in crops ==> c in Map(CropOf, kept) by {
      forall c | Some(c) in crops ensures c in Map(CropOf, kept) {
        var i :| 0 <= i < |crops| && crops[i] == Some(c);
        assert IsPresent(crops[i]);
        var j :| 0 <= j < |kept| && kept[j] == Some(c);
        assert Map(CropOf, kept)[j] == c;
      }
    }
    Map(CropOf, kept)
  }

  lemma ExtractFacesAppend(env: Env, image: Bytes, dims: Dims, xs: seq<BoundingBox>, ys: seq<BoundingBox>)
    ensures ExtractFaces(env, image, dims, xs + ys)
         == ExtractFaces(env, image, dims, xs) + ExtractFaces(env, image, dims, ys)
  {
    MapAppend((b: BoundingBox) => Settle(env.extract(image, Denormalise(b, dims))), xs, ys);
  }

  lemma PresentCropsAppend(xs: seq<Option<Bytes>>, ys: seq<Option<Bytes>>)
    ensures PresentCrops(xs + ys) == PresentCrops(xs) + PresentCrops(ys)
  {
    FilterAppend(IsPresent, xs, ys);
    MapAppend(CropOf, Filter(IsPresent, xs), Filter(IsPresent, ys));
  }

  /** One search request as `searchFaces` settles it: `None` when the request was
      rejected. On a missing collection the service rejects every search. */
  function SearchOne(env: Env, col: Collection, crop: Bytes): (r: Option<SearchResponse>)
    ensures col.Absent? ==> r.None?
    ensures col.Present? ==> (r.Some? <==> env.searchFacesByImage(crop).Success?)
    ensures r.Some? ==> r.value == env.searchFacesByImage(crop).value
  {
    if col.Absent? then None else Settle(env.searchFacesByImage(crop))
  }

  /** The filter of `searchFaces`: a settled response with a non-empty `FaceMatches`. */
  predicate HasMatches(r: Option<SearchResponse>) {
    r.Some? && r.value.faceMatches.Some? && |r.value.faceMatches.value| > 0
  }

  /** The map of `searchFaces`: the decoded `ExternalImageId` of the top match, or
      `None` (JavaScript's `undefined`) when that match has no `Face`. */
  function TopName(r: Option<SearchResponse>): (name: Option<string>)
    ensures name.Some? ==> HasMatches(r) && r.value.faceMatches.value[0].face.Some?
    ensures name.Some? ==> |name.value| <= |r.value.faceMatches.value[0].face.value.externalImageId|
    ensures HasMatches(r) && r.value.faceMatches.value[0].face.Some? ==> name.Some?
  {
    if HasMatches(r) && r.value.faceMatches.value[0].face.Some?
    then Some(Decode(r.value.faceMatches.value[0].face.value.externalImageId))
    else None
  }

  /** `searchFaces`: one search per crop, then one entry per response that settled with
      at least one match, in crop order, duplicates kept. */
  function SearchFaces(env: Env, col: Collection, crops: seq<Bytes>): (names: seq<Option<string>>)
    ensures |names| <= |crops|
    ensures col.Absent? ==> names == []
  {
    var responses := Map((c: Bytes) => SearchOne(env, col, c), crops);
    Map(TopName, Filter(HasMatches, responses))
  }

  lemma SearchFacesAppend(env: Env, col: Collection, xs: seq<Bytes>, ys: seq<Bytes>)
    ensures SearchFaces(env, col, xs + ys) == SearchFaces(env, col, xs) + SearchFaces(env, col, ys)
  {
    var one := (c: Bytes) => SearchOne(env, col, c);
    MapAppend(one, xs, ys);
    FilterAppend(HasMatches, Map(one, xs), Map(one, ys));
    MapAppend(TopName, Filter(HasMatches, Map(one, xs)), Filter(HasMatches, Map(one, ys)));
  }

  /** The filter and map of `searchFaces` on one crop: a response without matches is
      dropped, any other gives the top match's name. */
  lemma SearchFacesOne(env: Env, col: Collection, crop: Bytes)
    ensures var r := SearchOne(env, col, crop);
      SearchFaces(env, col, [crop]) == if HasMatches(r) then [TopName(r)] else []
  {
    var r := SearchOne(env, col, crop);
    assert Map((c: Bytes) => SearchOne(env, col, c), [crop]) == [r];
    assert [r][1..] == [];
  }

  /** The name read back from a top match is the label that was indexed, for every
      label without `-`: the search side of the label round trip. */
  lemma TopNameReadsLabel(r: Option<SearchResponse>, prefix: string, name: string)
    requires HasMatches(r) && r.value.faceMatches.value[0].face.Some?
    requires r.value.faceMatches.value[0].face.value.externalImageId == GetExternalId(prefix + ":" + name)
    requires ':' !in prefix && '-' !in name
    ensures TopName(r) == Some(name)
  {
    LabelRoundTrip(prefix, name);
  }

  /** What a single box contributes on its own: nothing when its crop fails or its search
      finds no match, otherwise the top match's name. */
  function PerBox(env: Env, col: Collection, image: Bytes, dims: Dims, b: BoundingBox): (names: seq<Option<string>>)
    ensures |names| <= 1
  {
    match env.extract(image, Denormalise(b, dims))
    case Failure(_) => []
    case Success(crop) =>
      var r := SearchOne(env, col, crop);
      if HasMatches(r) then [TopName(r)] else []
  }

  /** The per-box contributions of a list of boxes, in box order. */
  function AllBoxes(env: Env, col: Collection, image: Bytes, dims: Dims, boxes: seq<BoundingBox>): seq<Option<string>> {
    if |boxes| == 0 then []
    else AllBoxes(env, col, image, dims, boxes[..|boxes| - 1]) + PerBox(env, col, image, dims, boxes[|boxes| - 1])
  }

  /** The crop and search stages, from the retained boxes to the list of names. */
  function Stages(env: Env, col: Collection, image: Bytes, dims: Dims, boxes: seq<BoundingBox>): seq<Option<string>> {
    SearchFaces(env, col, PresentCrops(ExtractFaces(env, image, dims, boxes)))
  }

  lemma StagesAppend(env: Env, col: Collection, image: Bytes, dims: Dims, xs: seq<BoundingBox>, ys: seq<BoundingBox>)
    ensures Stages(env, col, image, dims, xs + ys)
         == Stages(env, col, image, dims, xs) + Stages(env, col, image, dims, ys)
  {
    ExtractFacesAppend(env, image, dims, xs, ys);
    var cx, cy := ExtractFaces(env, image, dims, xs), ExtractFaces(env, image, dims, ys);
    PresentCropsAppend(cx, cy);
    SearchFacesAppend(env, col, PresentCrops(cx), PresentCrops(cy));
  }

  lemma StagesOne(env: Env, col: Collection, image: Bytes, dims: Dims, b: BoundingBox)
    ensures Stages(env, col, image, dims, [b]) == PerBox(env, col, image, dims, b)
  {
    var cl := ExtractFaces(env, image, dims, [b]);
    assert cl == [Settle(env.extract(image, Denormalise(b, dims)))];
    assert [cl[0]][1..] == [];
    if cl[0].Some? {
      var crop := cl[0].value;
      assert PresentCrops(cl) == [crop];
      assert [crop][1..] == [];
      var r := SearchOne(env, col, crop);
      assert Map((c: Bytes) => SearchOne(env, col, c), [crop]) == [r];
      assert [r][1..] == [];
    } else {
      assert PresentCrops(cl) == [];
    }
  }

  /** The two fan-outs with their filters equal box-by-box processing: every box is
      cropped and searched independently of the others, a failure in one costs only its
      own entry, and the names come out in box order. */
  lemma {:induction false} StagesPerBox(env: Env, col: Collection, image: Bytes, dims: Dims, boxes: seq<BoundingBox>)
    ensures Stages(env, col, image, dims, boxes) == AllBoxes(env, col, image, dims, boxes)
  {
    if |boxes| > 0 {
      var init, last := boxes[..|boxes| - 1], boxes[|boxes| - 1];
      assert boxes == init + [last];
      StagesPerBox(env, col, image, dims, init);
      StagesAppend(env, col, image, dims, init, [last]);
      StagesOne(env, col, image, dims, last);
    }
  }

  /** Of three boxes, a middle one whose crop fails leaves the other two searched. */
  lemma CropFaultIsolation(env: Env, col: Collection, image: Bytes, dims: Dims, b1: BoundingBox, b2: BoundingBox, b3: BoundingBox)
    requires env.extract(image, Denormalise(b2, dims)).Failure?
    ensures Stages(env, col, image, dims, [b1, b2, b3])
         == PerBox(env, col, image, dims, b1) + PerBox(env, col, image, dims, b3)
  {
    var front := [b1, b2];
    assert [b1, b2, b3] == front + [b3];
    assert front == [b1] + [b2];
    StagesOne(env, col, image, dims, b1);
    StagesOne(env, col, image, dims, b2);
    StagesOne(env, col, image, dims, b3);
    assert PerBox(env, col, image, dims, b2) == [];
    StagesAppend(env, col, image, dims, [b1], [b2]);
    assert Stages(env, col, image, dims, front) == PerBox(env, col, image, dims, b1);
    StagesAppend(env, col, image, dims, front, [b3]);
  }

  /** `search(url)`: download, detect, read the size, then crop and search every retained
      box. A failure of the download, of detection or of reading the size rejects the
      whole search; crop and search failures only drop their own box. */
  function Search(env: Env, col: Collection, url: string): (r: Result<seq<Option<string>>>)
    ensures env.fetch(url).Failure? ==> r == Failure(env.fetch(url).error)
    ensures env.fetch(url).Success? && env.detectFaces(env.fetch(url).value).Failure? ==>
      r == Failure(env.detectFaces(env.fetch(url).value).error)
    ensures r.Success? ==>
      && env.fetch(url).Success?
      && var image := env.fetch(url).value;
      && env.detectFaces(image).Success?
      && env.metadata(image).Success?
      && r.value == AllBoxes(env, col, image, env.metadata(image).value, DetectFaces(env.detectFaces(image).value))
    ensures (&& env.fetch(url).Success?
             && env.detectFaces(env.fetch(url).value).Success?
             && env.metadata(env.fetch(url).value).Failure?) ==>
      r == Failure(env.metadata(env.fetch(url).value).error)
    // crop and search failures never reject the search
    ensures r.Success? <==>
      && env.fetch(url).Success?
      && env.detectFaces(env.fetch(url).value).Success?
      && env.metadata(env.fetch(url).value).Success?
    ensures r.Success? && col.Absent? ==> r.value == []
  {
    match env.fetch(url)
    case Failure(e) => Failure(e)
    case Success(image) =>
      match env.detectFaces(image)
      case Failure(e) => Failure(e)
      case Success(resp) =>
        var boxes := DetectFaces(resp);
        match env.metadata(image)
        case Failure(e) => Failure(e)
        case Success(dims) =>
          StagesPerBox(env, col, image, dims, boxes);
          Success(Stages(env, col, image, dims, boxes))
  }
}

=== FILE: seqs.dfy ===
/** Order-preserving list transformations, the shape of every fan-out/fan-in stage. */
module Seqs {

  /** `xs.filter(p)`: the elements of `xs` that satisfy `p`, in their original order. */
  function Filter<T>(p: T -> bool, xs: seq<T>): (r: seq<T>)
    ensures |r| <= |xs|
    ensures forall x :: x in r ==> x in xs && p(x)
    ensures forall i :: 0 <= i < |xs| && p(xs[i]) ==> xs[i] in r
    ensures (forall i :: 0 <= i < |xs| ==> !p(xs[i])) ==> r == []
  {
    if |xs| == 0 then []
    else (if p(xs[0]) then [xs[0]] else []) + Filter(p, xs[1..])
  }

  /** Filtering a concatenation filters each part: the kept elements stay in order. */
  lemma {:induction false} FilterAppend<T>(p: T -> bool, xs: seq<T>, ys: seq<T>)
    ensures Filter(p, xs + ys) == Filter(p, xs) + Filter(p, ys)
  {
    if |xs| == 0 {
      assert xs + ys == ys;
    } else {
      assert (xs + ys)[1..] == xs[1..] + ys;
      FilterAppend(p, xs[1..], ys);
    }
  }

  /** `xs.map(f)`. */
  function Map<T, U>(f: T -> U, xs: seq<T>): (r: seq<U>)
    ensures |r| == |xs|
    ensures forall i :: 0 <= i < |xs| ==> r[i] == f(xs[i])
  {
    seq(|xs|, i requires 0 <= i < |xs| => f(xs[i]))
  }

  lemma MapAppend<T, U>(f: T -> U, xs: seq<T>, ys: seq<T>)
    ensures Map(f, xs + ys) == Map(f, xs) + Map(f, ys)
  {
  }
}

=== FILE: services.dfy ===
/** The two collaborating services, reduced to the responses the handler reads. Every SDK
    call becomes a field of `Env`: a function from the call's arguments to its settled
    result, so the model is a pure function of what the services answer. */
module Services {
  import opened Outcomes
  import opened Geometry

  /** Raw image bytes; their content is never inspected. */
  type Bytes = seq<bv8>

  /** The recognition collection as a two-state machine. */
  datatype Collection = Absent | Present

  /** One entry of `FaceDetails`: its box and `Quality.Sharpness`. */
  datatype FaceDetail = FaceDetail(boundingBox: BoundingBox, sharpness: real)

  /** A `detectFaces` response; `faceDetails` may be missing. */
  datatype DetectResponse = DetectResponse(faceDetails: Option<seq<FaceDetail>>)

  /** The matched face of a search; only its `ExternalImageId` is read. */
  datatype Face = Face(externalImageId: string)

  /** One entry of `FaceMatches`; `face` is `None` when the entry has no `Face` property. */
  datatype FaceMatch = FaceMatch(face: Option<Face>)

  /** A `searchFacesByImage` response; `faceMatches` may be missing. */
  datatype SearchResponse = SearchResponse(faceMatches: Option<seq<FaceMatch>>)

  /** One entry of `FaceRecords`; only `Face.FaceId` is read. */
  datatype FaceRecord = FaceRecord(faceId: string)

  /** An `indexFaces` response; `faceRecords` may be missing. */
  datatype IndexResponse = IndexResponse(faceRecords: Option<seq<FaceRecord>>)

  /** What the services answer.
      - `fetch`: the HTTP download of a URL.
      - `describeFault`, `createFault`: a failure of `describeCollection` or
        `createCollection` other than the one the collection's state dictates.
      - `indexFaces`: the indexing answer on an existing collection, given the bytes and
        the external id.
      - `detectFaces`, `metadata`: face detection and the image's pixel size.
      - `extract`: cutting a rectangle out of an image.
      - `searchFacesByImage`: the search answer on an existing collection.
      - `resourceTags`: the `tags` of an asset as `api.resource` returns it (`None`
        when the asset has none).
      - `explicit`: the outcome of writing an asset's tags. */
  datatype Env = Env(
    fetch: string -> Result<Bytes>,
    describeFault: Option<Error>,
    createFault: Option<Error>,
    indexFaces: (Bytes, string) -> Result<IndexResponse>,
    detectFaces: Bytes -> Result<DetectResponse>,
    metadata: Bytes -> Result<Dims>,
    extract: (Bytes, CropRect) -> Result<Bytes>,
    searchFacesByImage: Bytes -> Result<SearchResponse>,
    resourceTags: string -> Result<Option<seq<string>>>,
    explicit: string -> Result<()>)

  /** The calls an invocation makes, in order. `AddFaceIdTag` and `AddNameTags` record a
      call to `addTags`, whether or not its write then succeeds. */
  datatype Call =
    | DescribeCollection
    | CreateCollection
    | IndexFaceCall(publicId: string, externalId: string, url: string)
    | AddFaceIdTag(publicId: string, tag: string)
    | AddNameTags(publicId: string, names: seq<Option<string>>)

  /** `.catch(error => console.log(error))`: a rejection settles as `undefined`. */
  function Settle<T>(r: Result<T>): (o: Option<T>)
    ensures o.Some? <==> r.Success?
    ensures o.Some? ==> o.value == r.value
  {
    match r
    case Success(v) => Some(v)
    case Failure(_) => None
  }
}

=== FILE: tag_store.dfy ===
/** The tag-store adapter: listing resources page by page, and appending tags to an asset
    by reading its tags and writing them back. */
module TagStore {
  import opened Outcomes

  /** One listed resource: its id and its tags, when it has any. */
  datatype Resource = Resource(publicId: string, tags: Option<seq<string>>)

  /** One answer of the listing API: a page of resources and the cursor to the next. */
  datatype Page = Page(resources: seq<Resource>, nextCursor: Option<string>)

  /** The options object passed to the listing API. */
  datatype ListRequest = ListRequest(
    deliveryType: string, resourceType: string, prefix: string,
    tags: bool, maxResults: nat, nextCursor: Option<string>)

  const MaxResults: nat := 500

  /** The options of `retrieveResources` before any cursor is known. */
  function FirstRequest(prefix: string, deliveryType: string, resourceType: string): ListRequest {
    ListRequest(deliveryType, resourceType, prefix, true, MaxResults, None)
  }

  /** JavaScript truthiness of a cursor: present and not the empty string. */
  predicate Truthy(cursor: Option<string>) {
    cursor.Some? && cursor.value != ""
  }

  /** A response after which the loop stops: a rejection, or a page with no usable cursor. */
  predicate Ends(r: Result<Page>) {
    r.Failure? || !Truthy(r.value.nextCursor)
  }

  /** The listing stops at some point of the response sequence. */
  predicate Settles(responses: seq<Result<Page>>) {
    exists i :: 0 <= i < |responses| && Ends(responses[i])
  }

  /** The index of the first response that ends the loop. */
  function Stop(responses: seq<Result<Page>>): (n: nat)
    requires Settles(responses)
    ensures n < |responses| && Ends(responses[n])
    ensures forall k :: 0 <= k < n ==> !Ends(responses[k])
  {
    if Ends(responses[0]) then 0
    else
      assert Settles(responses[1..]) by {
        var i :| 0 <= i < |responses| && Ends(responses[i]);
        assert i > 0 && responses[1..][i - 1] == responses[i];
      }
      1 + Stop(responses[1..])
  }

  /** The resources of the successful pages, concatenated in order. */
  function Flatten(responses: seq<Result<Page>>): seq<Resource> {
    if |responses| == 0 then []
    else
      var last := responses[|responses| - 1];
      Flatten(responses[..|responses| - 1]) + (if last.Success? then last.value.resources else [])
  }

  /** The cursor the k-th request carries: none for the first, the previous answer's after. */
  function CursorBefore(responses: seq<Result<Page>>, k: nat): Option<string> {
    if k == 0 || k > |responses| || responses[k - 1].Failure? then None
    else responses[k - 1].value.nextCursor
  }

  /** `retrieveResources(prefix, type, resource_type)` against a listing API whose k-th
      answer is `responses[k]`: a do-while loop that issues one request, appends its
      resources and carries its cursor into the next request, until an answer has no
      usable cursor. A rejected request rejects the whole listing. */
  method RetrieveResources(prefix: string, deliveryType: string, resourceType: string, responses: seq<Result<Page>>)
    returns (output: Result<seq<Resource>>, requests: seq<ListRequest>)
    requires Settles(responses)
    ensures |requests| == Stop(responses) + 1
    ensures requests[0] == FirstRequest(prefix, deliveryType, resourceType)
    ensures forall k :: 0 < k < |requests| ==>
      requests[k] == FirstRequest(prefix, deliveryType, resourceType).(nextCursor := responses[k - 1].value.nextCursor)
    ensures output.Failure? <==> responses[Stop(responses)].Failure?
    ensures output.Failure? ==> output.error == responses[Stop(responses)].error
    ensures output.Success? ==> output.value == Flatten(responses[..|requests|])
  {
    var first := FirstRequest(prefix, deliveryType, resourceType);
    var options := first;
    var collected: seq<Resource> := [];
    requests := [];
    var i := 0;
    while true
      invariant 0 <= i <= Stop(responses)
      invariant |requests| == i
      invariant forall k :: 0 <= k < i ==> requests[k] == first.(nextCursor := CursorBefore(responses, k))
      invariant options == first.(nextCursor := CursorBefore(responses, i))
      invariant collected == Flatten(responses[..i])
      decreases Stop(responses) - i
    {
      requests := requests + [options];
      var response := responses[i];
      if response.Failure? {
        output := Failure(response.error);
        break;
      }
      assert responses[..i + 1][..i] == responses[..i];
      collected := collected + response.value.resources;
      options := options.(nextCursor := response.value.nextCursor);
      if !Truthy(response.value.nextCursor) {
        output := Success(collected);
        break;
      }
      i := i + 1;
    }
  }

  /** `tags.concat(existing)` when the asset has tags, `tags` alone otherwise. */
  function MergeTags<T>(tags: seq<T>, existing: Option<seq<T>>): (r: seq<T>)
    ensures existing.None? ==> r == tags
    ensures existing.Some? ==> |r| == |tags| + |existing.value|
    ensures r[..|tags|] == tags
    ensures existing.Some? ==> r[|tags|..] == existing.value
  {
    match existing
    case None => tags
    case Some(current) => tags + current
  }

  /** Merging loses nothing and invents nothing: the written tags are, as a multiset,
      the new tags plus the existing ones, duplicates included. */
  lemma MergeTagsKeepsAll<T>(tags: seq<T>, existing: Option<seq<T>>)
    ensures existing.None? ==> multiset(MergeTags(tags, existing)) == multiset(tags)
    ensures existing.Some? ==> multiset(MergeTags(tags, existing)) == multiset(tags) + multiset(existing.value)
    ensures forall t :: t in tags ==> t in MergeTags(tags, existing)
    ensures existing.Some? ==> forall t :: t in existing.value ==> t in MergeTags(tags, existing)
  {
    var r := MergeTags(tags, existing);
    if existing.Some? {
      assert r == r[..|tags|] + r[|tags|..];
    }
  }

  /** What an `addTags` call does: the tag list it writes, if it writes one, and whether
      its promise resolves to the write's response (`false`: it resolves to `undefined`). */
  datatype AddTagsRun<T> = AddTagsRun(written: Option<seq<T>>, resolved: bool)

  /** `addTags(tags, public_id)` given the fetched asset's tags and the write's outcome.
      The write happens only after a successful fetch and carries the new tags followed
      by the fetched ones. Every error is logged and swallowed: the call never rejects. */
  function AddTags<T>(tags: seq<T>, fetched: Result<Option<seq<T>>>, write: Result<()>): (run: AddTagsRun<T>)
    ensures run.written.Some? <==> fetched.Success?
    ensures fetched.Success? ==> run.written.value == MergeTags(tags, fetched.value)
    ensures run.resolved <==> fetched.Success? && write.Success?
  {
    match fetched
    case Failure(_) => AddTagsRun(None, false)
    case Success(existing) => AddTagsRun(Some(MergeTags(tags, existing)), write.Success?)
  }
}

=== FILE: text.dfy ===
/** The few JavaScript string operations the handler relies on. */
module Text {

  /** `s.startsWith(prefix)`; every string starts with the empty prefix. */
  predicate StartsWith(s: string, prefix: string) {
    |prefix| <= |s| && s[..|prefix|] == prefix
  }

  /** `s.indexOf(c)` for a one-character needle: the first position of `c`, or -1. */
  function IndexOf(s: string, c: char): (r: int)
    ensures -1 <= r < |s|
    ensures r == -1 <==> c !in s
    ensures 0 <= r ==> s[r] == c && c !in s[..r]
  {
    if |s| == 0 then -1
    else if s[0] == c then 0
    else
      var k := IndexOf(s[1..], c);
      assert k >= 0 ==> s[..k + 1] == [s[0]] + s[1..][..k];
      if k == -1 then -1 else k + 1
  }

  /** `s.substring(s.indexOf(c) + 1, s.length)`: what follows the first `c`,
      or the whole of `s` when `c` does not occur. */
  function AfterFirst(s: string, c: char): (r: string)
    ensures c !in s ==> r == s
    ensures c in s ==> exists i :: 0 <= i < |s| && s[i] == c && c !in s[..i] && r == s[i + 1..]
    ensures c in s ==> |r| < |s|
  {
    s[IndexOf(s, c) + 1..]
  }

  /** The first `c` of `prefix + c + rest` is the joining one when the prefix has none. */
  lemma {:induction false} IndexOfJoin(prefix: string, c: char, rest: string)
    requires c !in prefix
    ensures IndexOf(prefix + [c] + rest, c) == |prefix|
  {
    if |prefix| > 0 {
      assert (prefix + [c] + rest)[1..] == prefix[1..] + [c] + rest;
      IndexOfJoin(prefix[1..], c, rest);
    }
  }

  /** For `prefix + c + rest` with no `c` in the prefix, the result is `rest` whatever it contains. */
  lemma AfterFirstOfJoin(prefix: string, c: char, rest: string)
    requires c !in prefix
    ensures AfterFirst(prefix + [c] + rest, c) == rest
  {
    IndexOfJoin(prefix, c, rest);
    assert (prefix + [c] + rest)[|prefix| + 1..] == rest;
  }
}
